=== FILE: README.md ===
# Drawing annotations on a ratio price chart — a Dafny model

This project models the drawing-annotation engine of a React charting app that plots
the price ratio of two assets (by default GLD over SLV) as candlesticks. Users place
horizontal lines, trend lines, rectangles, ellipses and text labels on the chart. They
then select them, drag their control points ("grips"), edit their attributes in a
form, and delete them.

The model covers these parts:

- the coordinate mapper between pixel space and (time, price) domain space;
- the drawing store: preferences, an insertion-ordered list of drawings, and one
  selection slot;
- the click-driven creation state machine of the chart surface and its live preview;
- the per-type rendering rules and the grip-drag editor of the drawing layer;
- the attributes editor;
- the tool bar's tool toggle and button highlighting;
- the application handlers that wire these together, and the display-range slice of
  the loaded rows;
- the range slider and the hook's initial-range rule;
- the ratio join of the two price series;
- the candle body geometry.

Every operation is a pure function or method over immutable values. React state
becomes an explicit state value, and each event handler becomes a transition. Time
and price are `real`. The mapper divides without any guard, so a division the source
can perform by zero is a precondition. The source generates ids with `Date.now()` and
parses dates with `new Date(...)`; both are parameters here (`freshId`, and
`epoch: string -> real`).

Modules follow the source files:

| module | source file |
|---|---|
| `Wrappers` | `Option`, for TypeScript's optional and nullable values |
| `Types` | src/types/index.ts, plus JavaScript's object spread, `find` and truthiness |
| `Coordinates` | src/utils/coordinates.ts |
| `Store` | src/store/useStore.ts |
| `Geometry` | the SVG primitives shared by src/components/DrawingLayer.tsx and src/components/drawing/DrawingPreview.tsx |
| `Preview` | src/components/drawing/DrawingPreview.tsx |
| `DrawingLayer` | src/components/DrawingLayer.tsx |
| `Creation` | src/components/Chart.tsx |
| `AttributesEditor` | src/components/DrawingAttributesModal.tsx |
| `Controls` | src/components/Controls.tsx |
| `App` | src/App.tsx |
| `DrawingTools` | src/hooks/useDrawingTools.ts |
| `RangeSlider` | src/components/RangeSlider.tsx |
| `AssetData` | src/hooks/useAssetData.ts |
| `Transformers` | src/services/transformers.ts |
| `Candlestick` | src/components/chart/CustomCandlestick.tsx |

Points where the code behaves differently from what its structure suggests, and the model follows the code:

- **Degenerate domains.** The code has no guard against a zero time or price
  range. The model puts non-zero ranges and a
  non-zero plot size in the preconditions of `Coordinates.PixelToChart` and
  `Coordinates.ChartToPixel`.
- **Tool change and a pending drawing.** Changing tool does not reset a pending
  creation: the code keeps `drawingStart` and `tempDrawing` across tool
  changes. The next click with any creating tool commits the earlier tool's drawing
  (`Creation.ToolChangeKeepsPending`).
- **Dangling selection.** `setSelectedDrawing` stores any id without checking, so the selection
  can dangle (`Store.SetSelectedCanDangle`). The other store operations do keep a
  valid selection valid (`Store.OperationsKeepSelectionValid`).
- **Drag measured against the wrong element.** The drag handler measures the
  pointer against `document.querySelector('svg')`, the first `svg` element of the
  document. In the app's layout that is the search icon of the symbol input in
  the header (`src/App.tsx:91`, `src/components/SymbolInput.tsx:57`), not the
  chart's drawing surface. A dragged point then lands off the cursor by the
  offset between the two elements' corners (`DrawingLayer.DropUnderCursor`).
- **Slider ranges outside 0..100.** The minimum gap is a percentage of the
  series, so it exceeds 40 on a series shorter than 75 rows. `handleEndChange`
  then returns an end past 100 and `handleStartChange` a start below 0
  (`src/components/RangeSlider.tsx:13-27`). The slice in `src/App.tsx:32-34`
  clamps an end past the series and counts a negative start from the end, so
  the chart can show fewer than thirty rows (`App.SliderLeavesHundred`,
  `App.EndHandlePassesHundred`). `App.SliderRangeShowsThirtyRows` holds only for
  ranges inside 0..100.
- **Initial display range.** The store's initial display range is the constant
  60%..100%. The hook's `calculateInitialRange` is defined but never called. The
  model includes it (`AssetData.InitialRange`) and proves what it would show.

## Model

| member | source | states |
|---|---|---|
| Types.Spread | src/store/useStore.ts:42 | each field of `{...base, ...patch}` is the patch's when the patch has it, else the base's; spreading an absent record contributes nothing |
| Types.Find | src/components/DrawingLayer.tsx:49 | `find` by id is empty exactly when no drawing has the id, and otherwise returns the first drawing of the list with that id |
| Coordinates.PixelToChart | src/utils/coordinates.ts:1-25 | a pixel's fraction of the plot area, from the left and from the top, equals the result's fraction of the time range from its start and of the price range from its top |
| Coordinates.ChartToPixel | src/utils/coordinates.ts:27-51 | a domain point's fraction of the time range and of the price range (from the top) equals the pixel's fraction of the plot area, offset by the margins |
| Coordinates.PixelRoundTrip | src/utils/coordinates.ts:1-51 | mapping a pixel to the domain and back returns the same pixel when both maps are defined |
| Coordinates.DomainRoundTrip | src/utils/coordinates.ts:1-51 | mapping a domain point to pixels and back returns the same domain point |
| Coordinates.Corners | src/utils/coordinates.ts:11-22 | the plot's top-left corner is (earliest time, highest price); (latest time, lowest price) maps to the bottom-right corner |
| Coordinates.Monotone | src/utils/coordinates.ts:43-48 | on an upright plot, later times map further right and higher prices map higher up (smaller pixel y) |
| Coordinates.PixelMonotone | src/utils/coordinates.ts:21-22 | moving the pointer right moves forward in time, and moving it down lowers the price |
| Store.SetPreferences | src/store/useStore.ts:30-33 | a shallow merge: given fields replace, missing fields keep their value; drawings and selection are untouched; an empty patch is a no-op |
| Store.AddDrawing | src/store/useStore.ts:34-35 | the drawing is appended after all existing drawings, which keep their order |
| Store.Patched | src/store/useStore.ts:40-44 | a patched drawing keeps id and type, gets the attributes `{...old, ...patch}`, and takes the patch's points only when the patch has points |
| Store.UpdateAll | src/store/useStore.ts:38-46 | drawings with the id are patched in place; all others are unchanged; length and order are kept |
| Store.UpdateDrawing | src/store/useStore.ts:36-47 | patches in place the drawings with the id; the others, the selection and the preferences stay |
| Store.Without | src/store/useStore.ts:50 | the result holds exactly the drawings whose id differs; when the id is absent it is the input itself |
| Store.RemoveDrawing | src/store/useStore.ts:48-52 | drops every drawing with the id; the selection is cleared exactly when it was that id |
| Store.ClearAllDrawings | src/store/useStore.ts:53-54 | leaves no drawings and no selection; the preferences stay |
| Store.SetSelectedDrawing | src/store/useStore.ts:55 | stores exactly the given id or null and changes nothing else |
| Store.WithoutConcat | src/store/useStore.ts:48-52 | removal distributes over concatenation, so survivors keep their relative paint order |
| Store.RemoveAbsentIsNoOp | src/store/useStore.ts:48-52 | removing an id that no drawing has, and that is not selected, leaves the store unchanged |
| Store.AddThenRemove | src/store/useStore.ts:34-52 | adding a drawing with a fresh id and then removing that id restores the drawing list |
| Store.UpdateAbsentIsNoOp | src/store/useStore.ts:36-47 | updating an id that no drawing has leaves the store unchanged |
| Store.UpdateIdempotent | src/store/useStore.ts:36-47 | applying the same patch twice equals applying it once |
| Store.PatchedAttributes | src/store/useStore.ts:42 | after an update each of the six attribute fields (points included) is the patch's when present, else the old value, also when the drawing had no attributes |
| Store.OperationsKeepSelectionValid | src/store/useStore.ts:34-54 | adding, updating, removing and clearing all keep a selection that names a stored drawing (or none) in that state |
| Store.SetSelectedCanDangle | src/store/useStore.ts:55 | selecting an id that is not in the store is accepted and leaves the selection dangling |
| Geometry.SegmentBetween | src/components/DrawingLayer.tsx:165-169 | the line runs from the first pixel point to the second |
| Geometry.BoxBetween | src/components/DrawingLayer.tsx:187-191 | the rectangle has non-negative size and spans exactly from the smaller to the larger coordinate on each axis |
| Geometry.OvalBetween | src/components/DrawingLayer.tsx:209-213 | the ellipse has non-negative radii and its extent on each axis is exactly the span of the two points |
| Geometry.BoxContainsOval | src/components/DrawingLayer.tsx:187-213 | the rectangle and the ellipse drawn from the same two points share one bounding box |
| Geometry.BoxSymmetric | src/components/drawing/DrawingPreview.tsx:42-59 | the box and the ellipse do not depend on which corner was placed first |
| Preview.RenderPreview | src/components/drawing/DrawingPreview.tsx:27-65 | a preview exists exactly for the two-point types: the trend line, box or ellipse between the start pixel and the pointer |
| DrawingLayer.StrokeOf | src/components/DrawingLayer.tsx:89 | the stroke is never empty: a non-empty colour is used, otherwise white (`#ffffff`) |
| DrawingLayer.StyleOf | src/components/DrawingLayer.tsx:88-95 | the stroke is the colour fallback above; a non-zero width is used, otherwise width 2; the dash pattern is `5,5` exactly for dashed, `2,2` exactly for dotted, else none |
| DrawingLayer.FontSize | src/components/DrawingLayer.tsx:233 | text size is eight times a non-zero line width, else 14 |
| DrawingLayer.RenderDrawing | src/components/DrawingLayer.tsx:81-249 | a shape is drawn exactly when there are enough points and the type is not select; gives each type's geometry through the coordinate mapper, and the text label falls back to "Text" |
| DrawingLayer.GripsAt | src/components/DrawingLayer.tsx:109-125 | one grip per point, numbered from zero, placed at the point's pixel position |
| DrawingLayer.Grips | src/components/DrawingLayer.tsx:84-125 | grips appear exactly on a rendered drawing that is selected or hovered; one for single-point types, one per point for two-point types |
| DrawingLayer.GripsOnShape | src/components/DrawingLayer.tsx:138-245 | the grips sit on the points that define the rendered shape (line ends, box corners, ellipse centre, text anchor) |
| DrawingLayer.DragMapping | src/components/DrawingLayer.tsx:52-55 | the move handler's inline formula is the shared pixel-to-domain map |
| DrawingLayer.DragMove | src/components/DrawingLayer.tsx:40-64 | while a drag is live and the measured element exists, an update for the dragged drawing replaces only the dragged point with the domain position of the pointer relative to that element and carries the existing attributes; otherwise no update |
| DrawingLayer.DropUnderCursor | src/components/DrawingLayer.tsx:43-56 | the dragged point lands under the cursor exactly when the element the handler measures against has the drawing surface's corner |
| DrawingLayer.PressedGripInRange | src/components/DrawingLayer.tsx:112-122 | pressing an offered grip starts a drag that addresses an existing point, and releasing ends it |
| DrawingLayer.GripPress | src/components/DrawingLayer.tsx:119-122 | pressing a grip fills the slot with the drawing's id and the grip's index |
| DrawingLayer.MouseUp | src/components/DrawingLayer.tsx:66-68 | releasing the pointer empties the slot |
| DrawingLayer.NoDragAfterRelease | src/components/DrawingLayer.tsx:66-68 | after pointer-up no pointer motion produces an update |
| Creation.ChartHeight | src/components/Chart.tsx:37 | the price pane is 400 pixels tall with the volume pane shown and 600 without |
| Creation.MinOf | src/components/Chart.tsx:43 | `Math.min` over a non-empty list is attained and bounds every element from below |
| Creation.MaxOf | src/components/Chart.tsx:44 | `Math.max` over a non-empty list is attained and bounds every element from above |
| Creation.XDomain | src/components/Chart.tsx:42-45 | for non-empty data, exactly the earliest and the latest row time (both attained, every row between them); none for empty data |
| Creation.YDomain | src/components/Chart.tsx:47-50 | 95% of the lowest low to 105% of the highest high, each attained by some row; none for empty data |
| Creation.YDomainOrdered | src/components/Chart.tsx:47-50 | with non-negative lows not above highs, the price domain is ordered, and strictly so when some high is positive |
| Creation.ChartViewport | src/components/Chart.tsx:37-50 | the mapper parameters the chart passes: its height, fixed margins and both data domains |
| Creation.DefaultAttributes | src/components/Chart.tsx:76-81 | new drawings are white, width 2, solid, tagged with their type, without text or points |
| Creation.Click | src/components/Chart.tsx:52-109 | with no creating tool nothing changes; from idle a single-point tool commits one point and a two-point tool becomes pending; from pending the click commits the first point and this one; a drawing is committed exactly when the state returns to idle |
| Creation.MouseMove | src/components/Chart.tsx:111-119 | the pointer is recorded only while pending; nothing else changes |
| Creation.ChartPreview | src/components/Chart.tsx:165-173 | the preview appears only with a first click, a tracked pointer and a half-built drawing, and is then the preview shape of that drawing's type |
| Creation.SingleClickCommitsOnePoint | src/components/Chart.tsx:69-85 | a single-point tool commits a one-point drawing on every click and never becomes pending |
| Creation.TwoClicksCommitTwoPoints | src/components/Chart.tsx:69-108 | a two-point tool commits after the second click with both clicks' domain points in order and the first click's id |
| Creation.ToolChangeKeepsPending | src/components/Chart.tsx:99-108 | after a tool change a pending creation is still committed by the next click, as the earlier tool's type |
| Creation.SelectToolFreezesPending | src/components/Chart.tsx:53 | with the select tool or no tool, clicks leave a pending creation untouched |
| Creation.MoveDoesNotAffectCommit | src/components/Chart.tsx:111-119 | pointer motion never changes what the next click commits |
| Creation.CommitMatchesPreview | src/components/Chart.tsx:165-173 | the committed two-point drawing renders exactly as the preview shown just before the second click |
| AttributesEditor.InitSnapshot | src/components/DrawingAttributesModal.tsx:16-19 | the form starts from the drawing's attributes with the drawing's points copied in (empty when it has none) |
| AttributesEditor.DateChange | src/components/DrawingAttributesModal.tsx:21-26 | only the time of the edited point changes |
| AttributesEditor.PriceChange | src/components/DrawingAttributesModal.tsx:28-32 | only the price of the edited point changes |
| AttributesEditor.SetColor | src/components/DrawingAttributesModal.tsx:78-81 | only the colour changes |
| AttributesEditor.SetLineStyle | src/components/DrawingAttributesModal.tsx:90-93 | only the line style changes |
| AttributesEditor.SetLineWidth | src/components/DrawingAttributesModal.tsx:107-110 | only the line width changes |
| AttributesEditor.SetText | src/components/DrawingAttributesModal.tsx:123-126 | only the text changes |
| AttributesEditor.DisplayedLineStyle | src/components/DrawingAttributesModal.tsx:89 | the select shows the stored style, and solid when there is none |
| AttributesEditor.PointFields | src/components/DrawingAttributesModal.tsx:34-64 | there is a date input and a price input for each point index, and no others |
| AttributesEditor.PointHeading | src/components/DrawingAttributesModal.tsx:39-41 | the first point is headed "Start Point" and every later one "End Point" |
| AttributesEditor.Fields | src/components/DrawingAttributesModal.tsx:72-132 | colour, style and width inputs always; a text input exactly for text drawings; date and price inputs exactly for the snapshot's points |
| AttributesEditor.Save | src/components/DrawingAttributesModal.tsx:142-147 | save reports the edited snapshot and then closes |
| AttributesEditor.Cancel | src/components/DrawingAttributesModal.tsx:136-141 | cancel only closes |
| AttributesEditor.EditsCommute | src/components/DrawingAttributesModal.tsx:21-32 | editing a point's time and its price commute |
| AttributesEditor.RewriteIsIdentity | src/components/DrawingAttributesModal.tsx:21-32 | writing back a point's own time and price reproduces the snapshot |
| Controls.ToolToggle | src/components/Controls.tsx:28-35 | select toggles the select tool off when active and on otherwise; other types get a fresh id; null clears |
| Controls.SelectTwiceDeselects | src/components/Controls.tsx:28-31 | pressing the select button twice leaves no tool |
| Controls.Includes | src/components/Controls.tsx:50 | `includes` holds exactly when the substring occurs at some position |
| Controls.LineGroupExactlyLines | src/components/Controls.tsx:50 | the `includes('Line')` test selects exactly the horizontal-line and trend-line tools |
| Controls.Highlighted | src/components/Controls.tsx:41-93 | the select and text buttons are lit exactly for their own tool, the line group exactly when the tool's type name contains `Line`, the shape group exactly for rectangle and ellipse |
| Controls.ExactlyOneHighlight | src/components/Controls.tsx:41-93 | an active tool highlights exactly one button or group (lines for the line tools, shapes for rectangle and ellipse); no tool highlights none |
| App.HandleToolSelect | src/App.tsx:37-43 | takes the tool; the drawing selection survives only when the tool is select |
| App.StampedType | src/App.tsx:54 | the type stamped on an update is the drawing's own type, or horizontal line when no drawing has the id |
| App.HandleDrawingUpdate | src/App.tsx:50-56 | forwards the patch with the type replaced, so the matched drawing's attributes carry its own type; other drawings are unchanged |
| App.HandleDrawingComplete | src/App.tsx:45-48 | the committed drawing is appended to the store |
| App.HandleDeleteSelected | src/App.tsx:58-64 | with a truthy selection, removes that drawing and clears the selection and the tool; otherwise nothing changes |
| App.HandleClearAll | src/App.tsx:66-69 | leaves no drawings, no selection and no tool |
| App.HandleDrawingDoubleClick | src/App.tsx:71-75 | selects the drawing and opens the editor |
| App.HandleRangeChange | src/App.tsx:82-84 | stores the new display range; every other preference, the drawings, the selection, the tool and the editor flag are unchanged |
| App.ToggleVolume | src/components/Controls.tsx:120 | the settings button flips the volume pane and keeps every other preference |
| App.ToggleVolumeTwice | src/components/Controls.tsx:120 | pressing the settings button twice restores the state |
| App.ApplyModalEvents | src/App.tsx:142-151 | editor events keep the selection, the tool and the number of drawings, hide the editor, and leave the store alone when every event is a close |
| App.CancelLeavesStore | src/App.tsx:142-151 | cancelling the editor leaves the store exactly as it was and hides the editor |
| App.SaveIsOneUpdate | src/App.tsx:146-150 | saving is one update of the selected drawing with the edited snapshot, then the editor is hidden |
| App.SaveUneditedKeepsDrawing | src/App.tsx:142-151 | saving an unedited form changes nothing but the type stamp and the attributes' copy of the points |
| App.DragMovesOnlyTargetPoint | src/components/DrawingLayer.tsx:49-63 | a grip drag moves only the dragged point to the domain position of the pointer relative to the measured element; the other points, the colour, width, style and text, and every other drawing stay |
| App.RectangleCornerDrag | src/components/DrawingLayer.tsx:57-63 | dragging corner 1 of a rectangle to (20, 5) gives points [(0,0), (20,5)] |
| App.DeleteClearsSelection | src/App.tsx:58-64 | deleting the selected A from [A, B] leaves [B] and no selection |
| App.SelectToggleAndSelection | src/App.tsx:37-43 | switching the select tool on keeps the drawing selection; toggling it off clears it |
| App.Ceil | src/App.tsx:33 | `Math.ceil` is the least integer not below its argument |
| App.SliceIndex | src/App.tsx:34 | a slice index counts from the end when negative and is clamped to the list |
| App.Slice | src/App.tsx:34 | `slice` returns the contiguous run between the clamped indices, or nothing when they cross |
| App.DisplayData | src/App.tsx:30-35 | the shown rows are the run between the rounded-down start and the rounded-up end, each clamped to the series and a negative one counted from the end, or nothing when they cross; for a range inside 0..100 no clamping happens |
| App.DisplayBounds | src/App.tsx:32-33 | for a range inside 0..100 the slice bounds are ordered and lie inside the series |
| App.InitialRangeShowsLatestRows | src/hooks/useAssetData.ts:21-27 | the initial range shows a suffix of the series: all of it when short, otherwise at least the last 250 rows |
| App.InitialStartBound | src/hooks/useAssetData.ts:25 | the rounded-down start percentage starts at or before the 250th row from the end |
| App.SliderRangeShowsThirtyRows | src/components/RangeSlider.tsx:10-11 | a range inside 0..100 whose handles are at least the minimum gap apart shows at least thirty rows |
| App.SliderLeavesHundred | src/components/RangeSlider.tsx:13-27 | from the initial range, the end handle can reach 135 and the start handle -50; the chart then shows 16 of 40 rows and the last 10 of 20 rows |
| App.EndHandlePassesHundred | src/components/RangeSlider.tsx:21-27 | on a series shorter than 75 rows, any end-handle move from the initial range puts the end past 100 |
| App.SliceSpan | src/components/RangeSlider.tsx:11 | such a range's slice bounds are at least thirty rows apart |
| App.MinRangeIsThirtyRows | src/components/RangeSlider.tsx:11 | the minimum gap, in percent of the series, is thirty rows |
| DrawingTools.StartAttributes | src/hooks/useDrawingTools.ts:14-18 | the hook's new drawings are white, width 2, tagged with their type, without a line style |
| DrawingTools.StartDrawing | src/hooks/useDrawingTools.ts:9-22 | starting makes a one-point drawing current and turns drawing on |
| DrawingTools.UpdateDrawing | src/hooks/useDrawingTools.ts:24-31 | appends the point to the current drawing (starting from none when it has none); without a current drawing nothing changes |
| DrawingTools.FinishDrawing | src/hooks/useDrawingTools.ts:33-38 | hands back the current drawing and resets to not drawing |
| DrawingTools.SetDrawingMode | src/hooks/useDrawingTools.ts:7 | only the mode changes |
| DrawingTools.StepsKeepWf | src/hooks/useDrawingTools.ts:9-38 | start, update and finish keep "drawing" and "has a current drawing" in step, and never touch the mode |
| DrawingTools.UpdateManyAppends | src/hooks/useDrawingTools.ts:24-31 | successive updates append their points in call order and change nothing else |
| DrawingTools.StartUpdateFinish | src/hooks/useDrawingTools.ts:9-38 | start at p, add ps, finish: the drawing handed back has points [p] + ps and the start attributes |
| RangeSlider.HandlesStayApart | src/components/RangeSlider.tsx:13-27 | after either handle moves, the handles are at least the minimum gap apart |
| RangeSlider.MinRange | src/components/RangeSlider.tsx:11 | the minimum gap is positive and is thirty rows' worth of percent |
| RangeSlider.StartChange | src/components/RangeSlider.tsx:13-19 | the start handle follows the input but stops the minimum gap short of the end; the end stays |
| RangeSlider.EndChange | src/components/RangeSlider.tsx:21-27 | the end handle follows the input but stays the minimum gap past the start; the start stays |
| RangeSlider.Round | src/components/RangeSlider.tsx:60 | `Math.round` lies within half a unit of its argument, halves rounding up |
| RangeSlider.DayLabel | src/components/RangeSlider.tsx:60-61 | a handle's label is its percentage of the row count, rounded |
| AssetData.InitialRange | src/hooks/useAssetData.ts:22-27 | the whole series when it has at most 250 rows; otherwise from the rounded-down percentage where the last 250 rows begin to 100% |
| AssetData.LoadRatio | src/hooks/useAssetData.ts:73-77 | an empty series is the "No data received" error; otherwise the result is the joined rows |
| Transformers.LastQuote | src/services/transformers.ts:17-19 | the lookup by date is empty exactly when no quote has the date; otherwise it is the last quote row on that date |
| Transformers.RatioRow | src/services/transformers.ts:24-36 | open and close are the price ratios; low and high bracket them and the low and high ratios, each attained; volume is the mean |
| Transformers.RatioUpTo | src/services/transformers.ts:21-37 | joining a prefix of the base rows yields at most that many rows |
| Transformers.KeptUpTo | src/services/transformers.ts:22 | the kept base positions are increasing and are exactly those whose date has a quote |
| Transformers.RatioRowsFromKept | src/services/transformers.ts:21-37 | output row i is the ratio of the i-th kept base row with the last quote on its date |
| Transformers.CalculateRatioData | src/services/transformers.ts:16-38 | the join yields, in base order, exactly the base rows whose date has a quote row, each joined with the last quote row of that date |
| Transformers.RatioRowsWellFormed | src/services/transformers.ts:21-37 | every output row lies on a date both series have, with low at most open and close and high at least both |
| Transformers.RatioKeepsDateOrder | src/hooks/useAssetData.ts:77-80 | base rows in date order give joined rows in date order, so the date sort that follows changes nothing |
| Transformers.LastQuoteExtend | src/services/transformers.ts:17-19 | adding a quote row makes it the answer for its date; other dates keep their answer |
| Transformers.IndexByDate | src/services/transformers.ts:17-19 | building the map by inserting rows in order answers every date with its last quote row |
| Transformers.ComputeRatioData | src/services/transformers.ts:16-38 | the loop computes the join |
| Candlestick.CandleColor | src/components/chart/CustomCandlestick.tsx:35-36 | green exactly when the close is above the open, red otherwise |
| Candlestick.CandleBody | src/components/chart/CustomCandlestick.tsx:33-70 | the body is max(0.8·slot width, 1) wide, centred on its slot, starts at the higher of the two mapped prices, is max(|Δy|, 1) tall, and so covers both |
| Candlestick.BodyTopIsHigherPrice | src/components/chart/CustomCandlestick.tsx:62-69 | on an upright plot a rising candle's body starts at the close and a falling one's at the open |
| Candlestick.DefaultViewportUpright | src/components/chart/CustomCandlestick.tsx:28-32 | the fallback chart parameters are upright and invertible |

## Left out

- Rendering mechanics: JSX, CSS classes, z-index layering and pointer-event routing are not modelled. Neither is the hover tracking (the hovered id is a parameter) nor the `svg` bounding-rectangle lookup: the drag handler receives the window pointer position and the corner of the element it measures against as parameters (`DrawingLayer.DragMove`). Creation clicks receive pointer positions already relative to the chart container.
- `src/components/Chart.tsx:4` imports `./drawing/DrawingLayer`, which is not part of this model. The `DrawingLayer` module models `src/components/DrawingLayer.tsx`; lemmas that pair the chart's click machine or the app's handlers with the drag model assume the two layers behave alike.
- Window listener attachment and detachment for drags are not modelled; the drag slot is explicit state.
- Presentational components are not modelled: PriceChart, VolumeChart, tooltips, the volume bar, GripBox, the tool dropdown, SymbolInput and the legacy `src/components/CustomCandlestick.tsx`.
- The network fetch, the local-storage cache and its same-day check, `transformTimeSeriesData` and the mock data are not modelled: they are I/O or text parsing.
- The `loading` and `error` flags of the asset hook are not modelled beyond `AssetData.LoadRatio`'s error result.
- The date sort after the join is not modelled as a sort. `Transformers.RatioKeepsDateOrder` shows it changes nothing on date-ordered base rows.
- Number and date parsing in the editor (`new Date(str).getTime()`, `parseFloat`, `Number`) and the displayed formats (`format`, `toFixed`) are not modelled: the edits receive parsed values.
- IEEE floating point is not modelled: numbers are exact reals. NaN, infinities and rounding error do not arise. The round trips are therefore exact equalities.
- Coordinates.PixelToChart: requires a non-zero plot size, because the source divides by it and would yield an infinity or NaN.
- Coordinates.ChartToPixel: requires non-zero time and price ranges for the same reason.
- Creation.XDomain: returns nothing for empty data, where `Math.min()` and `Math.max()` of nothing would give infinities.
- Creation.YDomain: returns nothing for empty data, for the same reason.
- RangeSlider.MinRange: requires at least one row, as do `RangeSlider.StartChange` and `RangeSlider.EndChange`, which use it. With an empty join the source passes 0 and computes an infinite minimum range, which is not a real.
- Transformers.CalculateRatioData: requires non-zero quote prices, because a zero divisor yields an infinity or NaN in the source.
- DrawingLayer.DragMove: requires the dragged index to address an existing point. In JavaScript an assignment past the end would extend the array; grips only offer existing indices (`DrawingLayer.PressedGripInRange`).
- AttributesEditor.DateChange: requires the edited index to be one of the form's point rows, which are the only indices the form offers.
- AttributesEditor.PriceChange: has the same requirement as `DateChange`.
- App.ApplyModalEvents: requires a truthy selection, which is the condition under which the editor is shown. A missing selected drawing would make the source's form read from `undefined`; that crash is not modelled.
- Types.Spread: treats a patch field as present or absent. A field present with the value `undefined` (which would overwrite the base in JavaScript) is not modelled.
- Numbers that JavaScript treats as falsy besides 0 (NaN) are not modelled in the `||` fallbacks.
- `useDrawingTools` reads the current drawing from its last render. The model applies each call to the state left by the previous one, as successive renders do.
- `Date.now()` ids and date parsing are parameters, so id collisions between drawings are not modelled.

=== FILE: app.dfy ===
/**
 * The application shell (src/App.tsx): the active tool, the attributes-editor
 * flag and the store, wired together by the handlers the chart, the tool bar
 * and the editor call; plus the display-range slice of the loaded rows.
 */
module App {
  import opened Wrappers
  import opened Types
  import opened Store
  import Coordinates
  import DrawingLayer
  import AttributesEditor
  import Controls
  import AssetData
  import RangeSlider

  datatype AppState = AppState(store: StoreState, selectedTool: Option<Tool>, showModal: bool)

  const Start := AppState(Store.Initial, None, false)

  /** `handleToolSelect`: take the tool; unless it is the select tool, drop the drawing selection (a null tool drops it too). */
  function HandleToolSelect(a: AppState, tool: Option<Tool>): (r: AppState)
    ensures r.selectedTool == tool
    ensures r.store.drawings == a.store.drawings && r.showModal == a.showModal
    ensures tool.Some? && tool.value.kind == Select ==> r.store.selected == a.store.selected
    ensures !(tool.Some? && tool.value.kind == Select) ==> r.store.selected.None?
  {
    var store := if tool.Some? && tool.value.kind == Select then a.store else SetSelectedDrawing(a.store, None);
    a.(selectedTool := tool, store := store)
  }

  /** The type `handleDrawingUpdate` stamps on a patch: the drawing's own type, or `horizontalLine` if it is gone. */
  function StampedType(ds: seq<Drawing>, id: string): (t: DrawingType)
    ensures HasId(ds, id) ==> t == Find(ds, id).value.kind
    ensures !HasId(ds, id) ==> t == HorizontalLine
  {
    var d := Find(ds, id);
    if d.Some? then d.value.kind else HorizontalLine
  }

  /**
   * `handleDrawingUpdate`: forward the patch to the store with its `type`
   * replaced by the drawing's current type. The drawing found first keeps
   * attributes whose type agrees with its own.
   */
  function HandleDrawingUpdate(a: AppState, id: string, patch: Attributes): (r: AppState)
    ensures r.selectedTool == a.selectedTool && r.showModal == a.showModal
    ensures r.store.selected == a.store.selected && r.store.preferences == a.store.preferences
    ensures |r.store.drawings| == |a.store.drawings|
    ensures forall i :: 0 <= i < |a.store.drawings| && a.store.drawings[i].id != id ==> r.store.drawings[i] == a.store.drawings[i]
    ensures forall i :: 0 <= i < |a.store.drawings| && a.store.drawings[i].id == id ==>
      r.store.drawings[i].points == (if patch.points.Some? then patch.points else a.store.drawings[i].points)
    ensures forall i :: 0 <= i < |a.store.drawings| && a.store.drawings[i].id == id ==>
      r.store.drawings[i].attributes == Some(Spread(a.store.drawings[i].attributes, patch.(kind := Some(StampedType(a.store.drawings, id)))))
    ensures var k := FirstIndex(a.store.drawings, id);
      k < |a.store.drawings| ==> r.store.drawings[k].attributes.value.kind == Some(a.store.drawings[k].kind)
  {
    a.(store := UpdateDrawing(a.store, id, patch.(kind := Some(StampedType(a.store.drawings, id)))))
  }

  /** `handleDrawingComplete`: store the committed drawing. */
  function HandleDrawingComplete(a: AppState, d: Drawing): (r: AppState)
    ensures r.store.drawings == a.store.drawings + [d]
    ensures r.store.selected == a.store.selected && r.selectedTool == a.selectedTool
  {
    a.(store := AddDrawing(a.store, d))
  }

  /**
   * `handleDeleteSelected`: with a (truthy) selection, remove that drawing and
   * clear both the selection and the tool; otherwise change nothing.
   */
  function HandleDeleteSelected(a: AppState): (r: AppState)
    ensures Truthy(a.store.selected) ==>
      && r.store.selected.None? && r.selectedTool.None?
      && !HasId(r.store.drawings, a.store.selected.value)
      && (forall d :: d in r.store.drawings <==> d in a.store.drawings && d.id != a.store.selected.value)
    ensures !Truthy(a.store.selected) ==> r == a
  {
    if Truthy(a.store.selected) then
      var removed := RemoveDrawing(a.store, a.store.selected.value);
      a.(store := SetSelectedDrawing(removed, None), selectedTool := None)
    else a
  }

  /** `handleClearAll`: no drawings, no selection, no tool. */
  function HandleClearAll(a: AppState): (r: AppState)
    ensures r.store.drawings == [] && r.store.selected.None? && r.selectedTool.None?
    ensures r.store.preferences == a.store.preferences && r.showModal == a.showModal
  {
    a.(store := ClearAllDrawings(a.store), selectedTool := None)
  }

  /** `handleDrawingDoubleClick`: select the drawing and open the attributes editor. */
  function HandleDrawingDoubleClick(a: AppState, id: string): (r: AppState)
    ensures r.store.selected == Some(id) && r.showModal
    ensures r.store.drawings == a.store.drawings && r.selectedTool == a.selectedTool
  {
    a.(store := SetSelectedDrawing(a.store, Some(id)), showModal := true)
  }

  /** `handleRangeChange`: store the slider's new range in the preferences. */
  function HandleRangeChange(a: AppState, range: (real, real)): (r: AppState)
    ensures r.store.preferences.displayRange == range
    ensures r.store.preferences == a.store.preferences.(displayRange := range)
    ensures r.store.drawings == a.store.drawings && r.store.selected == a.store.selected
    ensures r.selectedTool == a.selectedTool && r.showModal == a.showModal
  {
    a.(store := SetPreferences(a.store, NoPreferences.(displayRange := Some(range))))
  }

  /** The settings button: flip `showVolume`, keeping every other preference. */
  function ToggleVolume(a: AppState): (r: AppState)
    ensures r.store.preferences.showVolume == !a.store.preferences.showVolume
    ensures r.store.preferences.(showVolume := a.store.preferences.showVolume) == a.store.preferences
    ensures r.store.drawings == a.store.drawings && r.store.selected == a.store.selected
  {
    a.(store := SetPreferences(a.store, NoPreferences.(showVolume := Some(!a.store.preferences.showVolume))))
  }

  /** Pressing the settings button twice restores the preferences. */
  lemma ToggleVolumeTwice(a: AppState)
    ensures ToggleVolume(ToggleVolume(a)) == a
  {
  }

  /** The editor is on screen when its flag is set and a (truthy) drawing is selected. */
  predicate EditorOpen(a: AppState)
  {
    a.showModal && Truthy(a.store.selected)
  }

  /** The editor's owner: a save becomes an update of the selected drawing; both a save and a close hide the editor. */
  function {:induction false} ApplyModalEvents(a: AppState, evs: seq<AttributesEditor.ModalEvent>): (r: AppState)
    requires Truthy(a.store.selected)
    ensures r.store.selected == a.store.selected && r.selectedTool == a.selectedTool
    ensures |r.store.drawings| == |a.store.drawings|
    ensures |evs| > 0 ==> !r.showModal
    ensures (forall e :: e in evs ==> e == AttributesEditor.Closed) ==> r.store == a.store
    decreases |evs|
  {
    if evs == [] then a
    else
      var next := match evs[0]
        case Saved(attrs) => HandleDrawingUpdate(a, a.store.selected.value, attrs).(showModal := false)
        case Closed => a.(showModal := false);
      assert evs[0] in evs;
      assert forall e :: e in evs[1..] ==> e in evs;
      ApplyModalEvents(next, evs[1..])
  }

  /** Cancelling the editor hides it and leaves the store exactly as it was. */
  lemma CancelLeavesStore(a: AppState)
    requires EditorOpen(a)
    ensures ApplyModalEvents(a, AttributesEditor.Cancel()).store == a.store
    ensures !ApplyModalEvents(a, AttributesEditor.Cancel()).showModal
  {
  }

  /** Saving is one update of the selected drawing with the snapshot, then the editor is hidden. */
  lemma {:induction false} SaveIsOneUpdate(a: AppState, snap: Attributes)
    requires EditorOpen(a)
    ensures ApplyModalEvents(a, AttributesEditor.Save(snap))
         == HandleDrawingUpdate(a, a.store.selected.value, snap).(showModal := false)
  {
    var evs := AttributesEditor.Save(snap);
    var next := HandleDrawingUpdate(a, a.store.selected.value, snap).(showModal := false);
    assert evs[1..] == [AttributesEditor.Closed];
    assert ApplyModalEvents(a, evs) == ApplyModalEvents(next, evs[1..]);
    assert evs[1..][1..] == [];
    assert ApplyModalEvents(next, evs[1..]) == ApplyModalEvents(next.(showModal := false), []);
  }

  /**
   * Saving an unedited snapshot of a drawing that has points and attributes
   * changes nothing but the attributes' type stamp and their copy of the points.
   */
  lemma {:induction false} SaveUneditedKeepsDrawing(a: AppState)
    requires EditorOpen(a)
    requires var k := FirstIndex(a.store.drawings, a.store.selected.value);
      k < |a.store.drawings| && a.store.drawings[k].points.Some? && a.store.drawings[k].attributes.Some?
    ensures var k := FirstIndex(a.store.drawings, a.store.selected.value);
      var d := a.store.drawings[k];
      var r := ApplyModalEvents(a, AttributesEditor.Save(AttributesEditor.InitSnapshot(d))).store.drawings[k];
      && r.points == d.points
      && r.attributes.value.(kind := d.attributes.value.kind, points := d.attributes.value.points) == d.attributes.value
  {
    var k := FirstIndex(a.store.drawings, a.store.selected.value);
    var d := a.store.drawings[k];
    var snap := AttributesEditor.InitSnapshot(d);
    SaveIsOneUpdate(a, snap);
  }

  /**
   * A grip drag seen through the app: the moved point takes the domain position
   * of the pointer measured from `origin`, every other point and every attribute except the copied
   * point list stays, the type is kept, and every other drawing is untouched.
   */
  lemma {:induction false} DragMovesOnlyTargetPoint(a: AppState, slot: Option<DrawingLayer.Grip>, vp: Coordinates.Viewport, client: Point, origin: Point)
    requires DrawingLayer.DragInRange(slot, a.store.drawings) && DrawingLayer.Dragging(slot, a.store.drawings)
    requires Coordinates.PixelMappable(vp)
    ensures var call := DrawingLayer.DragMove(slot, a.store.drawings, vp, client, Some(origin)).value;
      var r := HandleDrawingUpdate(a, call.id, call.patch).store.drawings;
      var ds := a.store.drawings;
      var k := FirstIndex(ds, slot.value.drawingId);
      var i := slot.value.pointIndex;
      && |r| == |ds|
      && (forall j :: 0 <= j < |ds| && ds[j].id != slot.value.drawingId ==> r[j] == ds[j])
      && r[k].id == ds[k].id && r[k].kind == ds[k].kind
      && |r[k].points.value| == |ds[k].points.value|
      && r[k].points.value[i] == Coordinates.PixelToChart(vp, DrawingLayer.Relative(client, origin))
      && (forall j :: 0 <= j < |ds[k].points.value| && j != i ==> r[k].points.value[j] == ds[k].points.value[j])
      && (ds[k].attributes.Some? ==>
            var before := ds[k].attributes.value;
            var after := r[k].attributes.value;
            after.color == before.color && after.lineWidth == before.lineWidth
            && after.lineStyle == before.lineStyle && after.text == before.text)
  {
    var ds := a.store.drawings;
    var call := DrawingLayer.DragMove(slot, ds, vp, client, Some(origin)).value;
    var k := FirstIndex(ds, slot.value.drawingId);
    assert Find(ds, slot.value.drawingId) == Some(ds[k]);
  }

  /** The worked example of a grip drag, measured from the drawing surface: dragging corner 1 of a rectangle to (20, 5) leaves corner 0 alone. */
  lemma {:induction false} RectangleCornerDrag(vp: Coordinates.Viewport, attrs: Attributes)
    requires Coordinates.Invertible(vp)
    ensures var d := Drawing("r", Rectangle, Some([Point(0.0, 0.0), Point(10.0, 10.0)]), Some(attrs));
      var a := Start.(store := Start.store.(drawings := [d]));
      var slot := Some(DrawingLayer.Grip("r", 1));
      var call := DrawingLayer.DragMove(slot, [d], vp, Coordinates.ChartToPixel(vp, Point(20.0, 5.0)), Some(Point(0.0, 0.0)));
      call.Some? && HandleDrawingUpdate(a, call.value.id, call.value.patch).store.drawings[0].points
        == Some([Point(0.0, 0.0), Point(20.0, 5.0)])
  {
    var d := Drawing("r", Rectangle, Some([Point(0.0, 0.0), Point(10.0, 10.0)]), Some(attrs));
    var a := Start.(store := Start.store.(drawings := [d]));
    var slot := Some(DrawingLayer.Grip("r", 1));
    assert FirstIndex([d], "r") == 0;
    assert Find([d], "r") == Some(d);
    assert DrawingLayer.Dragging(slot, [d]);
    Coordinates.DomainRoundTrip(vp, Point(20.0, 5.0));
    var call := DrawingLayer.DragMove(slot, [d], vp, Coordinates.ChartToPixel(vp, Point(20.0, 5.0)), Some(Point(0.0, 0.0)));
    var pts := call.value.patch.points.value;
    assert pts == [Point(0.0, 0.0), Point(20.0, 5.0)];
    var r := HandleDrawingUpdate(a, call.value.id, call.value.patch).store.drawings;
    assert r[0].points == Some(pts);
  }

  /** Deleting the selected drawing of `[A, B]` leaves `[B]` and no selection. */
  lemma DeleteClearsSelection(a: AppState, x: Drawing, y: Drawing)
    requires a.store.drawings == [x, y] && x.id != y.id && x.id != "" && a.store.selected == Some(x.id)
    ensures HandleDeleteSelected(a).store.drawings == [y]
    ensures HandleDeleteSelected(a).store.selected.None?
  {
    assert Without([x, y], x.id) == [y] by {
      assert [x, y][1..] == [y];
      assert [y][1..] == [];
    }
  }

  /** The select tool keeps the drawing selection when switched on, and drops it when toggled off. */
  lemma SelectToggleAndSelection(a: AppState, id: string)
    ensures var on := HandleToolSelect(a, Controls.ToolToggle(None, Some(Select), id));
      && on.store.selected == a.store.selected
      && HandleToolSelect(on, Controls.ToolToggle(on.selectedTool, Some(Select), id)).store.selected.None?
  {
  }

  // ----- display range -----

  /** `Math.ceil` over the reals. */
  function Ceil(x: real): (c: int)
    ensures x <= c as real < x + 1.0
  {
    -((-x).Floor)
  }

  /** Where `Array.prototype.slice` puts an index: negatives count from the end, then clamp to `[0, n]`. */
  function SliceIndex(k: int, n: nat): (r: nat)
    ensures r <= n
    ensures 0 <= k <= n ==> r == k
    ensures k > n ==> r == n
    ensures k < 0 ==> r == (if n + k < 0 then 0 else n + k)
  {
    if k < 0 then (if n + k < 0 then 0 else n + k)
    else if k > n then n
    else k
  }

  /** `Array.prototype.slice(start, end)`: a contiguous run, empty when the end falls before the start. */
  function Slice<T>(s: seq<T>, start: int, end: int): (r: seq<T>)
    ensures var f := SliceIndex(start, |s|); var t := SliceIndex(end, |s|);
      (f <= t ==> r == s[f..t]) && (t < f ==> r == [])
  {
    var f := SliceIndex(start, |s|);
    var t := SliceIndex(end, |s|);
    if t <= f then [] else s[f..t]
  }

  /** The first row index the display range shows. */
  function SliceStart(n: nat, range: (real, real)): int
  {
    (n as real * (range.0 / 100.0)).Floor
  }

  /** One past the last row index the display range shows. */
  function SliceEnd(n: nat, range: (real, real)): int
  {
    Ceil(n as real * (range.1 / 100.0))
  }

  /** The rows the chart shows: the percentage range of the full series, rounded outward. */
  function DisplayData(full: seq<Candle>, range: (real, real)): (r: seq<Candle>)
    ensures |full| == 0 ==> r == []
    ensures exists f, t :: 0 <= f <= t <= |full| && r == full[f..t]
    ensures var f := SliceIndex(SliceStart(|full|, range), |full|); var t := SliceIndex(SliceEnd(|full|, range), |full|);
      (f <= t ==> r == full[f..t]) && (t < f ==> r == [])
    ensures 0.0 <= range.0 <= range.1 <= 100.0 ==>
      var f := SliceStart(|full|, range); var t := SliceEnd(|full|, range);
      0 <= f <= t <= |full| && r == full[f..t]
  {
    if |full| == 0 then
      assert full[0..0] == [];
      []
    else
      var r := Slice(full, SliceStart(|full|, range), SliceEnd(|full|, range));
      DisplayBounds(|full|, range);
      var f := SliceIndex(SliceStart(|full|, range), |full|);
      var t := SliceIndex(SliceEnd(|full|, range), |full|);
      assert t < f ==> r == full[f..f];
      r
  }

  /** For a range inside 0..100 the slice bounds are ordered and lie within the series. */
  lemma DisplayBounds(n: nat, range: (real, real))
    ensures 0.0 <= range.0 <= range.1 <= 100.0 ==>
      0 <= SliceStart(n, range) <= SliceEnd(n, range) <= n
  {
    if 0.0 <= range.0 <= range.1 <= 100.0 {
      var x0 := n as real * (range.0 / 100.0);
      var x1 := n as real * (range.1 / 100.0);
      assert 0.0 <= x0 <= x1 <= n as real;
    }
  }

  /**
   * The range computed by `calculateInitialRange` shows the latest rows: a
   * suffix of the series holding all of it when short and at least the last
   * 250 rows otherwise.
   */
  lemma {:induction false} InitialRangeShowsLatestRows(full: seq<Candle>)
    ensures var r := DisplayData(full, AssetData.InitialRange(|full|));
      && |r| >= (if |full| < AssetData.VisibleRows then |full| else AssetData.VisibleRows)
      && r == full[|full| - |r|..]
  {
    var n := |full|;
    var range := AssetData.InitialRange(n);
    var r := DisplayData(full, range);
    if n > 0 {
      var f := SliceStart(n, range);
      var t := SliceEnd(n, range);
      assert t == n by {
        assert n as real * (range.1 / 100.0) == n as real;
      }
      if n > AssetData.VisibleRows {
        InitialStartBound(n);
      }
      assert r == full[f..n];
    }
  }

  /**
   * A range inside 0..100 whose handles are at least `MinRange` apart shows at
   * least thirty rows. The slider's handlers can also produce ranges outside
   * 0..100, for which this does not hold (`SliderLeavesHundred`).
   */
  lemma {:induction false} SliderRangeShowsThirtyRows(full: seq<Candle>, range: (real, real))
    requires |full| > 0
    requires 0.0 <= range.0 <= range.1 <= 100.0
    requires range.1 - range.0 >= RangeSlider.MinRange(|full|)
    ensures |DisplayData(full, range)| >= 30
  {
    var n := |full|;
    SliceSpan(n, range);
    DisplayBounds(n, range);
    assert DisplayData(full, range) == full[SliceStart(n, range)..SliceEnd(n, range)];
  }

  /**
   * The slider's handlers do leave 0..100. On a 40-row series, moving the end
   * handle from the store's initial range to 50 puts the end at 135, and the
   * chart shows 16 rows; on a 20-row series, moving the start handle to 10
   * puts the start at -50, and `slice` counts it from the end, showing the
   * last 10 rows.
   */
  lemma SliderLeavesHundred(full40: seq<Candle>, full20: seq<Candle>)
    requires |full40| == 40 && |full20| == 20
    ensures RangeSlider.EndChange(InitialDisplayRange, 50, 40) == (60.0, 135.0)
    ensures DisplayData(full40, (60.0, 135.0)) == full40[24..40]
    ensures RangeSlider.StartChange(InitialDisplayRange, 10, 20) == (-50.0, 100.0)
    ensures DisplayData(full20, (-50.0, 100.0)) == full20[10..20]
  {
    assert RangeSlider.MinRange(40) == 75.0;
    assert RangeSlider.MinRange(20) == 150.0;
    assert SliceStart(40, (60.0, 135.0)) == 24 && SliceEnd(40, (60.0, 135.0)) == 54;
    assert SliceStart(20, (-50.0, 100.0)) == -10 && SliceEnd(20, (-50.0, 100.0)) == 20;
  }

  /**
   * On any series shorter than 75 rows, moving the end handle from the store's
   * initial range puts the end past 100, whatever value the handle reports.
   */
  lemma {:induction false} EndHandlePassesHundred(n: nat, input: int)
    requires 0 < n < 75 && input <= 100
    ensures RangeSlider.EndChange(InitialDisplayRange, input, n).1 > 100.0
  {
    var m := RangeSlider.MinRange(n);
    MinRangeAboveForty(n, m);
  }

  lemma MinRangeAboveForty(n: nat, m: real)
    requires 0 < n < 75 && m * n as real == 3000.0
    ensures m > 40.0
  {
  }

  /** The slice bounds of such a range are at least thirty rows apart. */
  lemma SliceSpan(n: nat, range: (real, real))
    requires n > 0
    requires range.1 - range.0 >= RangeSlider.MinRange(n)
    ensures SliceEnd(n, range) - SliceStart(n, range) >= 30
  {
    var x0 := n as real * (range.0 / 100.0);
    var x1 := n as real * (range.1 / 100.0);
    RoundOutward(x0, x1);
    MinRangeIsThirtyRows(n);
    GapAtLeast(n as real, range.0, range.1, RangeSlider.MinRange(n));
  }

  lemma RoundOutward(x0: real, x1: real)
    ensures x0.Floor as real <= x0 && x1 <= Ceil(x1) as real
  {
  }

  /** For a long series the initial range starts at or before the row 250 from the end. */
  lemma InitialStartBound(n: nat)
    requires n > AssetData.VisibleRows
    ensures SliceStart(n, AssetData.InitialRange(n)) <= n - AssetData.VisibleRows
  {
    var range := AssetData.InitialRange(n);
    var k := (n - AssetData.VisibleRows) as real;
    var p := k / n as real * 100.0;
    assert n as real * (p / 100.0) == k;
    ScaleMonotone(n as real, range.0, p);
  }

  lemma ScaleMonotone(n: real, a: real, b: real)
    requires n >= 0.0 && a <= b
    ensures n * (a / 100.0) <= n * (b / 100.0)
  {
  }

  lemma ScaleDifference(n: real, a: real, b: real)
    ensures n * (b / 100.0) - n * (a / 100.0) == n * ((b - a) / 100.0)
  {
  }

  /** `MinRange` percent of the series is thirty rows. */
  lemma MinRangeIsThirtyRows(n: nat)
    requires n > 0
    ensures n as real * (RangeSlider.MinRange(n) / 100.0) == 30.0
  {
  }

  /** A percentage gap of at least `m` spans at least 30 rows when `m` percent is 30 rows. */
  lemma GapAtLeast(n: real, a: real, b: real, m: real)
    requires n >= 0.0 && b - a >= m && n * (m / 100.0) == 30.0
    ensures n * (b / 100.0) - n * (a / 100.0) >= 30.0
  {
    ScaleDifference(n, a, b);
    ScaleMonotone(n, m, b - a);
  }
}

=== FILE: asset_data.dfy ===
/** The initial display range of the asset-data hook (`calculateInitialRange` in src/hooks/useAssetData.ts). */
module AssetData {
  import opened Types
  import Transformers

  /** How many of the latest rows the initial range aims to show. */
  const VisibleRows: nat := 250

  /**
   * `calculateInitialRange`: the whole series when it is short; otherwise from
   * the rounded-down percentage at which the last 250 rows begin, to 100%.
   */
  function InitialRange(n: nat): (r: (real, real))
    ensures n <= VisibleRows ==> r == (0.0, 100.0)
    ensures n > VisibleRows ==> r.1 == 100.0 && 0.0 <= r.0 < 100.0
    ensures n > VisibleRows ==> r.0 == r.0.Floor as real
    ensures n > VisibleRows ==> r.0 <= (n - VisibleRows) as real / n as real * 100.0 < r.0 + 1.0
  {
    if n <= VisibleRows then (0.0, 100.0)
    else
      var start := ((n - VisibleRows) as real / n as real * 100.0).Floor;
      assert (n - VisibleRows) as real / n as real < 1.0;
      (if start < 0 then 0.0 else start as real, 100.0)
  }

  /** The outcome of a load: the joined rows, or the message the hook shows instead of the chart. */
  datatype LoadResult = Loaded(rows: seq<Candle>) | Failed(message: string)

  const NoDataMessage := "No data received for one or both symbols"

  /**
   * The part of `fetchData` after both series have arrived (from the network or
   * the cache): an empty series is an error, otherwise the rows are joined.
   */
  function LoadRatio(base: seq<Candle>, quotes: seq<Candle>): (r: LoadResult)
    requires Transformers.Divisible(quotes)
    ensures r.Failed? <==> |base| == 0 || |quotes| == 0
    ensures r.Failed? ==> r.message == NoDataMessage
    ensures r.Loaded? ==> r.rows == Transformers.CalculateRatioData(base, quotes)
  {
    if |base| == 0 || |quotes| == 0 then Failed(NoDataMessage)
    else Loaded(Transformers.CalculateRatioData(base, quotes))
  }
}

=== FILE: attributes_editor.dfy ===
/**
 * The attributes editor (src/components/DrawingAttributesModal.tsx): a local
 * snapshot of one drawing's attributes with its points copied in, edited
 * field by field, then either emitted on save or dropped on cancel.
 *
 * Text parsing at the form boundary (`new Date(str).getTime()`, `parseFloat`,
 * `Number`) is left to the caller: the edits receive the parsed values.
 */
module AttributesEditor {
  import opened Wrappers
  import opened Types

  /** The snapshot the form starts from: the drawing's attributes, with `points` copied from the drawing (or empty). */
  function InitSnapshot(d: Drawing): (snap: Attributes)
    ensures snap.points == Some(d.points.GetOr([]))
    ensures d.attributes.Some? ==> snap.(points := d.attributes.value.points) == d.attributes.value
    ensures d.attributes.None? ==> snap == PointsPatch(d.points.GetOr([]))
  {
    Spread(d.attributes, PointsPatch(d.points.GetOr([])))
  }

  /** The form shows a date and a price input for every point of the snapshot; edits address one of them. */
  predicate HasPointRow(snap: Attributes, index: nat)
  {
    snap.points.Some? && index < |snap.points.value|
  }

  /** `handleDateChange`: set the time of one point; its price, the other points and every other field stay. */
  function DateChange(snap: Attributes, index: nat, time: real): (r: Attributes)
    requires HasPointRow(snap, index)
    ensures HasPointRow(r, index) && |r.points.value| == |snap.points.value|
    ensures r.points.value[index] == Point(time, snap.points.value[index].y)
    ensures forall j :: 0 <= j < |snap.points.value| && j != index ==> r.points.value[j] == snap.points.value[j]
    ensures r.(points := snap.points) == snap
  {
    var pts := snap.points.value;
    snap.(points := Some(pts[index := pts[index].(x := time)]))
  }

  /** `handlePriceChange`: set the price of one point; its time, the other points and every other field stay. */
  function PriceChange(snap: Attributes, index: nat, price: real): (r: Attributes)
    requires HasPointRow(snap, index)
    ensures HasPointRow(r, index) && |r.points.value| == |snap.points.value|
    ensures r.points.value[index] == Point(snap.points.value[index].x, price)
    ensures forall j :: 0 <= j < |snap.points.value| && j != index ==> r.points.value[j] == snap.points.value[j]
    ensures r.(points := snap.points) == snap
  {
    var pts := snap.points.value;
    snap.(points := Some(pts[index := pts[index].(y := price)]))
  }

  /** The colour input's handler: only `color` changes. */
  function SetColor(snap: Attributes, c: string): (r: Attributes)
    ensures r.color == Some(c) && r.(color := snap.color) == snap
  {
    snap.(color := Some(c))
  }

  /** The line-style select's handler: only `lineStyle` changes. */
  function SetLineStyle(snap: Attributes, ls: LineStyle): (r: Attributes)
    ensures r.lineStyle == Some(ls) && r.(lineStyle := snap.lineStyle) == snap
  {
    snap.(lineStyle := Some(ls))
  }

  /** The line-width input's handler: only `lineWidth` changes. */
  function SetLineWidth(snap: Attributes, w: real): (r: Attributes)
    ensures r.lineWidth == Some(w) && r.(lineWidth := snap.lineWidth) == snap
  {
    snap.(lineWidth := Some(w))
  }

  /** The text input's handler: only `text` changes. */
  function SetText(snap: Attributes, t: string): (r: Attributes)
    ensures r.text == Some(t) && r.(text := snap.text) == snap
  {
    snap.(text := Some(t))
  }

  /** The style the select shows: a missing style reads as solid. */
  function DisplayedLineStyle(snap: Attributes): (ls: LineStyle)
    ensures snap.lineStyle.Some? ==> ls == snap.lineStyle.value
    ensures snap.lineStyle.None? ==> ls == Solid
  {
    snap.lineStyle.GetOr(Solid)
  }

  /** The inputs of the form. */
  datatype Field = ColorField | LineStyleField | LineWidthField | TextField | DateField(index: nat) | PriceField(index: nat)

  function PointFields(n: nat): (fs: seq<Field>)
    ensures forall f :: f in fs <==> (f.DateField? || f.PriceField?) && f.index < n
  {
    if n == 0 then []
    else
      var rest := PointFields(n - 1);
      rest + [DateField(n - 1), PriceField(n - 1)]
  }

  /** The form's inputs: colour, style and width always; text only for text drawings; a date and a price per snapshot point. */
  function Fields(d: Drawing, snap: Attributes): (fs: seq<Field>)
    ensures ColorField in fs && LineStyleField in fs && LineWidthField in fs
    ensures TextField in fs <==> d.kind == Text
    ensures forall i: nat :: DateField(i) in fs <==> HasPointRow(snap, i)
    ensures forall i: nat :: PriceField(i) in fs <==> HasPointRow(snap, i)
  {
    [ColorField, LineStyleField, LineWidthField]
    + (if d.kind == Text then [TextField] else [])
    + PointFields(if snap.points.Some? then |snap.points.value| else 0)
  }

  /** The heading over each point's inputs. */
  function PointHeading(index: nat): (h: string)
    ensures h == "Start Point" <==> index == 0
    ensures h == "End Point" <==> index != 0
  {
    if index == 0 then "Start Point" else "End Point"
  }

  /** What the form reports to its owner, in order. */
  datatype ModalEvent = Saved(attributes: Attributes) | Closed

  /** Save: `onSave` with the edited snapshot, then `onClose`. */
  function Save(snap: Attributes): (evs: seq<ModalEvent>)
    ensures |evs| == 2 && evs[0] == Saved(snap) && evs[|evs| - 1] == Closed
  {
    [Saved(snap), Closed]
  }

  /** Cancel: only `onClose`; nothing is saved. */
  function Cancel(): (evs: seq<ModalEvent>)
    ensures forall e :: e in evs ==> e == Closed
    ensures |evs| == 1
  {
    [Closed]
  }

  /** Editing a point's time and its price touch disjoint fields, so the order does not matter. */
  lemma {:induction false} EditsCommute(snap: Attributes, index: nat, time: real, price: real)
    requires HasPointRow(snap, index)
    ensures DateChange(PriceChange(snap, index, price), index, time)
         == PriceChange(DateChange(snap, index, time), index, price)
  {
    var a := DateChange(PriceChange(snap, index, price), index, time);
    var b := PriceChange(DateChange(snap, index, time), index, price);
    assert a.points.value == b.points.value;
  }

  /** Writing back a point's own time and price reproduces the snapshot. */
  lemma RewriteIsIdentity(snap: Attributes, index: nat)
    requires HasPointRow(snap, index)
    ensures var p := snap.points.value[index];
      PriceChange(DateChange(snap, index, p.x), index, p.y) == snap
  {
    var p := snap.points.value[index];
    var r := PriceChange(DateChange(snap, index, p.x), index, p.y);
    assert r.points.value == snap.points.value;
  }
}

=== FILE: candlestick.dfy ===
/**
 * The candle body (src/components/chart/CustomCandlestick.tsx): a rectangle
 * centred in the bar slot the charting library hands over, spanning the mapped
 * open and close prices, coloured by direction.
 */
module Candlestick {
  import opened Types
  import opened Coordinates
  import opened Geometry

  const UpColor := "#10B981"
  const DownColor := "#EF4444"

  /** The parameters the component falls back to when the caller passes none. */
  const DefaultViewport := Viewport(800.0, 400.0, (0.0, 100.0), (0.0, 100.0), Margin(20.0, 70.0, 30.0, 20.0))

  datatype Body = Body(x: real, y: real, width: real, height: real, fill: string)

  /** Rising candles (close strictly above open) are green, all others red. */
  function CandleColor(c: Candle): (fill: string)
    ensures fill == UpColor <==> c.close > c.open
    ensures fill == DownColor <==> c.close <= c.open
  {
    if c.close > c.open then UpColor else DownColor
  }

  /** The pixel height of a price at the candle's time. */
  function PriceY(vp: Viewport, time: real, price: real): real
    requires DomainMappable(vp)
  {
    ChartToPixel(vp, Point(time, price)).y
  }

  /**
   * The body: 80% of the slot width but at least one pixel, centred on the
   * slot; from the higher of the two mapped prices down, at least one pixel
   * tall, so both mapped prices lie on it.
   */
  function CandleBody(slotX: real, slotWidth: real, c: Candle, epoch: string -> real, vp: Viewport): (b: Body)
    requires DomainMappable(vp)
    ensures b.width == Max(slotWidth * 0.8, 1.0) && b.width >= 1.0
    ensures b.x + b.width / 2.0 == slotX + slotWidth / 2.0
    ensures b.height >= 1.0
    ensures var oy := PriceY(vp, epoch(c.date), c.open); var cy := PriceY(vp, epoch(c.date), c.close);
      && b.y == Min(oy, cy)
      && b.height == Max(Abs(cy - oy), 1.0)
      && b.y <= oy <= b.y + b.height && b.y <= cy <= b.y + b.height
    ensures b.fill == CandleColor(c)
  {
    var candleWidth := Max(slotWidth * 0.8, 1.0);
    var xCenter := slotX + slotWidth / 2.0;
    var t := epoch(c.date);
    var openPoint := ChartToPixel(vp, Point(t, c.open));
    var closePoint := ChartToPixel(vp, Point(t, c.close));
    Body(xCenter - candleWidth / 2.0, Min(openPoint.y, closePoint.y), candleWidth,
         Max(Abs(closePoint.y - openPoint.y), 1.0), CandleColor(c))
  }

  /** On an upright plot a rising candle's body starts at the close (the higher price) and a falling one at the open. */
  lemma {:induction false} BodyTopIsHigherPrice(slotX: real, slotWidth: real, c: Candle, epoch: string -> real, vp: Viewport)
    requires Upright(vp)
    ensures c.close > c.open ==> CandleBody(slotX, slotWidth, c, epoch, vp).y == PriceY(vp, epoch(c.date), c.close)
    ensures c.close < c.open ==> CandleBody(slotX, slotWidth, c, epoch, vp).y == PriceY(vp, epoch(c.date), c.open)
  {
    var t := epoch(c.date);
    Monotone(vp, Point(t, c.open), Point(t, c.close));
    Monotone(vp, Point(t, c.close), Point(t, c.open));
  }

  /** The default parameters are invertible, so a candle always has a defined body under them. */
  lemma DefaultViewportUpright()
    ensures Upright(DefaultViewport) && Invertible(DefaultViewport)
  {
  }
}

=== FILE: controls.dfy ===
/**
 * The tool bar (src/components/Controls.tsx): the tool toggle and which
 * button group is highlighted for the active tool.
 */
module Controls {
  import opened Wrappers
  import opened Types

  /** The fixed identifier of the select pseudo-tool. */
  const SelectToolId := "select-tool"

  /**
   * `handleToolSelect`: `select` toggles the select tool off when it is active
   * and on otherwise; any other type becomes a tool with a fresh id; null
   * deselects.
   */
  function ToolToggle(current: Option<Tool>, requested: Option<DrawingType>, freshId: string): (r: Option<Tool>)
    ensures requested == Some(Select) && current.Some? && current.value.kind == Select ==> r.None?
    ensures requested == Some(Select) && !(current.Some? && current.value.kind == Select) ==> r == Some(Tool(Select, SelectToolId))
    ensures requested.Some? && requested.value != Select ==> r == Some(Tool(requested.value, freshId))
    ensures requested.None? ==> r.None?
  {
    if requested == Some(Select) then
      if current.Some? && current.value.kind == Select then None else Some(Tool(Select, SelectToolId))
    else if requested.Some? then Some(Tool(requested.value, freshId))
    else None
  }

  /** Pressing the select button twice returns to no tool, whatever tool was active before. */
  lemma SelectTwiceDeselects(current: Option<Tool>, id1: string, id2: string)
    requires !(current.Some? && current.value.kind == Select)
    ensures ToolToggle(ToolToggle(current, Some(Select), id1), Some(Select), id2).None?
  {
  }

  /** `sub` occurs in `s` starting at position `i`. */
  predicate OccursAt(s: string, sub: string, i: int)
  {
    0 <= i && i + |sub| <= |s| && s[i..i + |sub|] == sub
  }

  /** JavaScript's `s.includes(sub)`. */
  function {:induction false} Includes(s: string, sub: string): (b: bool)
    ensures b <==> exists i :: OccursAt(s, sub, i)
    decreases |s|
  {
    if |s| < |sub| then false
    else if s[..|sub|] == sub then
      assert OccursAt(s, sub, 0);
      true
    else
      var rest := Includes(s[1..], sub);
      assert forall i :: OccursAt(s[1..], sub, i) <==> OccursAt(s, sub, i + 1) by {
        forall i: int
          ensures OccursAt(s[1..], sub, i) <==> OccursAt(s, sub, i + 1)
        {
          if 0 <= i && i + |sub| <= |s[1..]| {
            assert s[1..][i..i + |sub|] == s[i + 1..i + 1 + |sub|];
          }
        }
      }
      assert (exists i :: OccursAt(s, sub, i)) ==> exists i :: OccursAt(s[1..], sub, i) by {
        if exists i :: OccursAt(s, sub, i) {
          var i :| OccursAt(s, sub, i);
          assert i != 0;
          assert OccursAt(s[1..], sub, i - 1);
        }
      }
      rest
  }

  /** The tool bar's buttons and button groups. */
  datatype Button = SelectButton | LineGroup | ShapeGroup | TextButton

  /**
   * The highlighted buttons: the line group is lit when the tool's type name
   * contains `Line`, the shape group for rectangle or ellipse, and the select
   * and text buttons for their own type.
   */
  function Highlighted(tool: Option<Tool>): (lit: set<Button>)
    ensures SelectButton in lit <==> tool.Some? && tool.value.kind == Select
    ensures LineGroup in lit <==> tool.Some? && Includes(TypeName(tool.value.kind), "Line")
    ensures ShapeGroup in lit <==> tool.Some? && (tool.value.kind == Rectangle || tool.value.kind == Ellipse)
    ensures TextButton in lit <==> tool.Some? && tool.value.kind == Text
  {
    if tool.None? then {}
    else
      var t := tool.value.kind;
      (if t == Select then {SelectButton} else {})
      + (if Includes(TypeName(t), "Line") then {LineGroup} else {})
      + (if t == Rectangle || t == Ellipse then {ShapeGroup} else {})
      + (if t == Text then {TextButton} else {})
  }

  /** `includes('Line')` picks out exactly the two line tools. */
  lemma {:induction false} LineGroupExactlyLines(t: DrawingType)
    ensures Includes(TypeName(t), "Line") <==> t == HorizontalLine || t == TrendLine
  {
    var s := TypeName(t);
    if t == HorizontalLine {
      assert OccursAt(s, "Line", 10);
    } else if t == TrendLine {
      assert OccursAt(s, "Line", 5);
    } else {
      forall i: int
        ensures !OccursAt(s, "Line", i)
      {
        if 0 <= i && i + 4 <= |s| {
          assert s[i..i + 4][0] == s[i];
          assert s[i] in s;
          assert 'L' !in s;
        }
      }
    }
  }

  /** An active tool lights exactly one button or group; no tool lights none. */
  lemma {:induction false} ExactlyOneHighlight(tool: Option<Tool>)
    ensures tool.None? ==> Highlighted(tool) == {}
    ensures tool.Some? ==> |Highlighted(tool)| == 1
    ensures tool.Some? && (tool.value.kind == HorizontalLine || tool.value.kind == TrendLine) ==> Highlighted(tool) == {LineGroup}
    ensures tool.Some? && (tool.value.kind == Rectangle || tool.value.kind == Ellipse) ==> Highlighted(tool) == {ShapeGroup}
  {
    if tool.Some? {
      LineGroupExactlyLines(tool.value.kind);
    }
  }
}

=== FILE: coordinates.dfy ===
/**
 * The coordinate mapper (src/utils/coordinates.ts): two affine maps between
 * pixel space and (time, price) domain space. Pixel y grows downward while
 * price grows upward, so the y axis is inverted.
 *
 * The source divides by the effective plot size and by the domain ranges
 * without any guard, so those divisions are preconditions here.
 */
module Coordinates {
  import opened Types

  datatype Margin = Margin(top: real, right: real, bottom: real, left: real)

  /** The parameters both maps share: chart size, the two domain extents and the margins. */
  datatype Viewport = Viewport(
    chartWidth: real,
    chartHeight: real,
    xDomain: (real, real),
    yDomain: (real, real),
    margin: Margin)

  function EffectiveWidth(vp: Viewport): real
  {
    vp.chartWidth - vp.margin.left - vp.margin.right
  }

  function EffectiveHeight(vp: Viewport): real
  {
    vp.chartHeight - vp.margin.top - vp.margin.bottom
  }

  function XRange(vp: Viewport): real
  {
    vp.xDomain.1 - vp.xDomain.0
  }

  function YRange(vp: Viewport): real
  {
    vp.yDomain.1 - vp.yDomain.0
  }

  /** `pixelToChartCoords` divides by the effective width and height. */
  predicate PixelMappable(vp: Viewport)
  {
    EffectiveWidth(vp) != 0.0 && EffectiveHeight(vp) != 0.0
  }

  /** `chartToPixelCoords` divides by the time range and the price range. */
  predicate DomainMappable(vp: Viewport)
  {
    XRange(vp) != 0.0 && YRange(vp) != 0.0
  }

  /** Both maps are defined and, as the lemmas below show, inverse to each other. */
  predicate Invertible(vp: Viewport)
  {
    PixelMappable(vp) && DomainMappable(vp)
  }

  /**
   * `pixelToChartCoords`: a pixel's offset into the plot area, as a fraction of
   * the effective size, is the same fraction of the domain range, measured from
   * the lower time bound and from the UPPER price bound.
   */
  function PixelToChart(vp: Viewport, p: Point): (d: Point)
    requires PixelMappable(vp)
    ensures XRange(vp) != 0.0 ==>
      (d.x - vp.xDomain.0) / XRange(vp) == (p.x - vp.margin.left) / EffectiveWidth(vp)
    ensures YRange(vp) != 0.0 ==>
      (vp.yDomain.1 - d.y) / YRange(vp) == (p.y - vp.margin.top) / EffectiveHeight(vp)
    ensures XRange(vp) == 0.0 ==> d.x == vp.xDomain.0
    ensures YRange(vp) == 0.0 ==> d.y == vp.yDomain.1
  {
    var effectiveX := p.x - vp.margin.left;
    var effectiveY := p.y - vp.margin.top;
    var dateValue := vp.xDomain.0 + (effectiveX / EffectiveWidth(vp)) * XRange(vp);
    var priceValue := vp.yDomain.1 - (effectiveY / EffectiveHeight(vp)) * YRange(vp);
    Point(dateValue, priceValue)
  }

  /**
   * `chartToPixelCoords`: a domain point's fraction of the domain range becomes
   * the same fraction of the effective plot size, offset by the margins.
   */
  function ChartToPixel(vp: Viewport, d: Point): (p: Point)
    requires DomainMappable(vp)
    ensures EffectiveWidth(vp) != 0.0 ==>
      (p.x - vp.margin.left) / EffectiveWidth(vp) == (d.x - vp.xDomain.0) / XRange(vp)
    ensures EffectiveHeight(vp) != 0.0 ==>
      (p.y - vp.margin.top) / EffectiveHeight(vp) == (vp.yDomain.1 - d.y) / YRange(vp)
    ensures EffectiveWidth(vp) == 0.0 ==> p.x == vp.margin.left
    ensures EffectiveHeight(vp) == 0.0 ==> p.y == vp.margin.top
  {
    var effectiveX := ((d.x - vp.xDomain.0) / XRange(vp)) * EffectiveWidth(vp);
    var effectiveY := ((vp.yDomain.1 - d.y) / YRange(vp)) * EffectiveHeight(vp);
    Point(effectiveX + vp.margin.left, effectiveY + vp.margin.top)
  }

  /** Scaling by a non-zero factor and back is the identity. */
  lemma ScaleBack(a: real, b: real, c: real)
    requires b != 0.0 && c != 0.0
    ensures ((a / b) * c / c) * b == a
  {
    calc {
      ((a / b) * c / c) * b;
    ==  { assert (a / b) * c / c == a / b; }
      (a / b) * b;
    ==
      a;
    }
  }

  /** Mapping a pixel to the domain and back gives the same pixel. */
  lemma {:induction false} PixelRoundTrip(vp: Viewport, p: Point)
    requires Invertible(vp)
    ensures ChartToPixel(vp, PixelToChart(vp, p)) == p
  {
    var d := PixelToChart(vp, p);
    var ex := p.x - vp.margin.left;
    var ey := p.y - vp.margin.top;
    assert d.x - vp.xDomain.0 == (ex / EffectiveWidth(vp)) * XRange(vp);
    ScaleBack(ex, EffectiveWidth(vp), XRange(vp));
    assert vp.yDomain.1 - d.y == (ey / EffectiveHeight(vp)) * YRange(vp);
    ScaleBack(ey, EffectiveHeight(vp), YRange(vp));
  }

  /** Mapping a domain point to pixels and back gives the same domain point. */
  lemma {:induction false} DomainRoundTrip(vp: Viewport, d: Point)
    requires Invertible(vp)
    ensures PixelToChart(vp, ChartToPixel(vp, d)) == d
  {
    var p := ChartToPixel(vp, d);
    var fx := d.x - vp.xDomain.0;
    var fy := vp.yDomain.1 - d.y;
    assert p.x - vp.margin.left == (fx / XRange(vp)) * EffectiveWidth(vp);
    ScaleBack(fx, XRange(vp), EffectiveWidth(vp));
    assert p.y - vp.margin.top == (fy / YRange(vp)) * EffectiveHeight(vp);
    ScaleBack(fy, YRange(vp), EffectiveHeight(vp));
  }

  /**
   * The top-left corner of the plot area is (earliest time, highest price) and
   * (latest time, lowest price) sits at the bottom-right corner.
   */
  lemma Corners(vp: Viewport)
    requires Invertible(vp)
    ensures PixelToChart(vp, Point(vp.margin.left, vp.margin.top)) == Point(vp.xDomain.0, vp.yDomain.1)
    ensures ChartToPixel(vp, Point(vp.xDomain.1, vp.yDomain.0))
         == Point(vp.chartWidth - vp.margin.right, vp.chartHeight - vp.margin.bottom)
  {
    var p := ChartToPixel(vp, Point(vp.xDomain.1, vp.yDomain.0));
    assert (vp.xDomain.1 - vp.xDomain.0) / XRange(vp) == 1.0;
    assert (vp.yDomain.1 - vp.yDomain.0) / YRange(vp) == 1.0;
  }

  /** Multiplying a strict inequality by a positive factor keeps it. */
  lemma MulPositive(a: real, b: real, k: real)
    requires a < b && k > 0.0
    ensures a * k < b * k
  {
  }

  /** `(a / k) < (b / k)` for a positive `k`. */
  lemma DivPositive(a: real, b: real, k: real)
    requires a < b && k > 0.0
    ensures a / k < b / k
  {
    assert a / k == a * (1.0 / k);
    assert b / k == b * (1.0 / k);
    MulPositive(a, b, 1.0 / k);
  }

  /** The plot area is not flipped: the ranges and the effective size are positive. */
  predicate Upright(vp: Viewport)
  {
    EffectiveWidth(vp) > 0.0 && EffectiveHeight(vp) > 0.0 && XRange(vp) > 0.0 && YRange(vp) > 0.0
  }

  /** On an upright plot later times lie further right and higher prices lie further up (smaller y). */
  lemma {:induction false} Monotone(vp: Viewport, a: Point, b: Point)
    requires Upright(vp)
    ensures a.x < b.x ==> ChartToPixel(vp, a).x < ChartToPixel(vp, b).x
    ensures a.y < b.y ==> ChartToPixel(vp, a).y > ChartToPixel(vp, b).y
  {
    if a.x < b.x {
      DivPositive(a.x - vp.xDomain.0, b.x - vp.xDomain.0, XRange(vp));
      MulPositive((a.x - vp.xDomain.0) / XRange(vp), (b.x - vp.xDomain.0) / XRange(vp), EffectiveWidth(vp));
    }
    if a.y < b.y {
      DivPositive(vp.yDomain.1 - b.y, vp.yDomain.1 - a.y, YRange(vp));
      MulPositive((vp.yDomain.1 - b.y) / YRange(vp), (vp.yDomain.1 - a.y) / YRange(vp), EffectiveHeight(vp));
    }
  }

  /** Pixel-side monotonicity: moving the pointer right moves forward in time, moving it down lowers the price. */
  lemma {:induction false} PixelMonotone(vp: Viewport, p: Point, q: Point)
    requires Upright(vp)
    ensures p.x < q.x ==> PixelToChart(vp, p).x < PixelToChart(vp, q).x
    ensures p.y < q.y ==> PixelToChart(vp, p).y > PixelToChart(vp, q).y
  {
    if p.x < q.x {
      DivPositive(p.x - vp.margin.left, q.x - vp.margin.left, EffectiveWidth(vp));
      MulPositive((p.x - vp.margin.left) / EffectiveWidth(vp), (q.x - vp.margin.left) / EffectiveWidth(vp), XRange(vp));
    }
    if p.y < q.y {
      DivPositive(p.y - vp.margin.top, q.y - vp.margin.top, EffectiveHeight(vp));
      MulPositive((p.y - vp.margin.top) / EffectiveHeight(vp), (q.y - vp.margin.top) / EffectiveHeight(vp), YRange(vp));
    }
  }
}

=== FILE: creation.dfy ===
/**
 * The chart surface (src/components/Chart.tsx): the domain extents derived from
 * the visible rows, and the click-driven creation state machine that turns one
 * click (horizontal line, text) or two clicks (trend line, rectangle, ellipse)
 * into a committed drawing.
 *
 * The component's three pieces of React state are kept as they are:
 * `drawingStart` (the first click, in pixels), `currentPoint` (the pointer
 * while pending, in pixels) and `tempDrawing` (the half-built drawing).
 * Identifiers come from `Date.now()` in the source and are a parameter here.
 */
module Creation {
  import opened Wrappers
  import opened Types
  import opened Coordinates
  import Geometry
  import Preview
  import DrawingLayer

  // ----- layout and domains -----

  /** The chart's fixed margins: top 20, right 70, bottom 30, left 20. */
  const ChartMargin := Margin(20.0, 70.0, 30.0, 20.0)

  /** The price pane is shorter when the volume pane is shown below it. */
  function ChartHeight(showVolume: bool): (h: real)
    ensures h > 0.0
    ensures showVolume ==> h == 400.0
    ensures !showVolume ==> h == 600.0
  {
    if showVolume then 400.0 else 600.0
  }

  /** `Math.min(...xs)` over a non-empty list: attained, and no larger than any element. */
  function {:induction false} MinOf(xs: seq<real>): (m: real)
    requires |xs| > 0
    ensures exists i :: 0 <= i < |xs| && m == xs[i]
    ensures forall i :: 0 <= i < |xs| ==> m <= xs[i]
  {
    if |xs| == 1 then xs[0]
    else
      var rest := MinOf(xs[1..]);
      assert forall i :: 1 <= i < |xs| ==> xs[i] == xs[1..][i - 1];
      if xs[0] <= rest then xs[0] else rest
  }

  /** `Math.max(...xs)` over a non-empty list: attained, and no smaller than any element. */
  function {:induction false} MaxOf(xs: seq<real>): (m: real)
    requires |xs| > 0
    ensures exists i :: 0 <= i < |xs| && m == xs[i]
    ensures forall i :: 0 <= i < |xs| ==> m >= xs[i]
  {
    if |xs| == 1 then xs[0]
    else
      var rest := MaxOf(xs[1..]);
      assert forall i :: 1 <= i < |xs| ==> xs[i] == xs[1..][i - 1];
      if xs[0] >= rest then xs[0] else rest
  }

  function Lows(data: seq<Candle>): (r: seq<real>)
    ensures |r| == |data| && forall i :: 0 <= i < |data| ==> r[i] == data[i].low
  {
    seq(|data|, i requires 0 <= i < |data| => data[i].low)
  }

  function Highs(data: seq<Candle>): (r: seq<real>)
    ensures |r| == |data| && forall i :: 0 <= i < |data| ==> r[i] == data[i].high
  {
    seq(|data|, i requires 0 <= i < |data| => data[i].high)
  }

  function Times(data: seq<Candle>, epoch: string -> real): (r: seq<real>)
    ensures |r| == |data| && forall i :: 0 <= i < |data| ==> r[i] == epoch(data[i].date)
  {
    seq(|data|, i requires 0 <= i < |data| => epoch(data[i].date))
  }

  /**
   * `xDomain`: the earliest and latest row times. With no rows the source's
   * `Math.min()` / `Math.max()` give infinities, which are not reals: `None`.
   */
  function XDomain(data: seq<Candle>, epoch: string -> real): (r: Option<(real, real)>)
    ensures r.Some? <==> |data| > 0
    ensures r.Some? ==> r.value.0 <= r.value.1
    ensures r.Some? ==> forall i :: 0 <= i < |data| ==> r.value.0 <= epoch(data[i].date) <= r.value.1
    ensures r.Some? ==> exists i :: 0 <= i < |data| && r.value.0 == epoch(data[i].date)
    ensures r.Some? ==> exists i :: 0 <= i < |data| && r.value.1 == epoch(data[i].date)
  {
    if |data| == 0 then None
    else
      var ts := Times(data, epoch);
      Some((MinOf(ts), MaxOf(ts)))
  }

  /**
   * `yDomain`: 95% of the lowest low up to 105% of the highest high; `None`
   * for no rows, as for `XDomain`.
   */
  function YDomain(data: seq<Candle>): (r: Option<(real, real)>)
    ensures r.Some? <==> |data| > 0
    ensures r.Some? ==> exists i :: 0 <= i < |data| && r.value.0 == data[i].low * 0.95
    ensures r.Some? ==> forall i :: 0 <= i < |data| ==> r.value.0 <= data[i].low * 0.95
    ensures r.Some? ==> exists i :: 0 <= i < |data| && r.value.1 == data[i].high * 1.05
    ensures r.Some? ==> forall i :: 0 <= i < |data| ==> r.value.1 >= data[i].high * 1.05
  {
    if |data| == 0 then None
    else
      var lo := MinOf(Lows(data));
      var hi := MaxOf(Highs(data));
      Some((lo * 0.95, hi * 1.05))
  }

  /** Rows whose prices are non-negative with each low at most its high. */
  predicate SaneRows(data: seq<Candle>)
  {
    forall i :: 0 <= i < |data| ==> 0.0 <= data[i].low <= data[i].high
  }

  /** With sane rows the price extent is ordered, and strictly so once any high is positive. */
  lemma {:induction false} YDomainOrdered(data: seq<Candle>)
    requires |data| > 0 && SaneRows(data)
    ensures YDomain(data).value.0 <= YDomain(data).value.1
    ensures (exists i :: 0 <= i < |data| && data[i].high > 0.0) ==> YDomain(data).value.0 < YDomain(data).value.1
  {
    var lo := MinOf(Lows(data));
    var hi := MaxOf(Highs(data));
    var k :| 0 <= k < |data| && lo == data[k].low;
    assert lo <= data[0].low <= data[0].high <= hi;
    assert lo * 0.95 <= lo;
    if exists i :: 0 <= i < |data| && data[i].high > 0.0 {
      var i :| 0 <= i < |data| && data[i].high > 0.0;
      assert hi >= data[i].high > 0.0;
      assert hi * 1.05 > hi;
    }
  }

  /** The viewport the chart hands to the mapper: client width, pane height, margins and the two extents. */
  function ChartViewport(width: real, showVolume: bool, data: seq<Candle>, epoch: string -> real): (r: Option<Viewport>)
    ensures r.Some? <==> |data| > 0
    ensures r.Some? ==> r.value.chartHeight == ChartHeight(showVolume) && r.value.margin == ChartMargin
    ensures r.Some? ==> r.value.xDomain == XDomain(data, epoch).value && r.value.yDomain == YDomain(data).value
  {
    if |data| == 0 then None
    else Some(Viewport(width, ChartHeight(showVolume), XDomain(data, epoch).value, YDomain(data).value, ChartMargin))
  }

  // ----- creation state machine -----

  datatype ChartState = ChartState(drawingStart: Option<Point>, currentPoint: Option<Point>, tempDrawing: Option<Drawing>)

  const Idle := ChartState(None, None, None)

  predicate IsPending(s: ChartState)
  {
    s.drawingStart.Some?
  }

  /**
   * The states the handlers can reach from `Idle`: a first click and a
   * half-built drawing with at least one point exist together, and the pointer
   * is only tracked while pending.
   */
  predicate Wf(s: ChartState)
  {
    && (s.drawingStart.Some? <==> s.tempDrawing.Some?)
    && (s.drawingStart.None? ==> s.currentPoint.None?)
    && (s.tempDrawing.Some? ==> s.tempDrawing.value.points.Some? && |s.tempDrawing.value.points.value| >= 1)
  }

  /** Clicks create drawings only while a tool other than `select` is active. */
  predicate Creates(tool: Option<Tool>)
  {
    tool.Some? && tool.value.kind != Select
  }

  /** The attributes every new drawing starts with: white, width 2, solid. */
  function DefaultAttributes(t: DrawingType): (a: Attributes)
    ensures a.kind == Some(t) && a.color == Some("#ffffff") && a.lineWidth == Some(2.0) && a.lineStyle == Some(Solid)
    ensures a.text.None? && a.points.None?
  {
    Attributes(Some(t), Some("#ffffff"), Some(2.0), None, Some(Solid), None)
  }

  /** A click's effect: the next state and the drawing handed to `onDrawingComplete`, if any. */
  datatype ClickOutcome = ClickOutcome(state: ChartState, committed: Option<Drawing>)

  /**
   * `handleChartClick`. Without a creating tool nothing happens. From idle a
   * single-point tool commits at once; a two-point tool records the first
   * point and becomes pending. From pending the click commits the half-built
   * drawing with its first point and this one, whatever tool is active now.
   */
  function Click(s: ChartState, tool: Option<Tool>, pixel: Point, vp: Viewport, freshId: string): (r: ClickOutcome)
    requires Wf(s)
    requires Creates(tool) ==> PixelMappable(vp)
    ensures Wf(r.state)
    ensures !Creates(tool) ==> r == ClickOutcome(s, None)
    ensures Creates(tool) ==> (!IsPending(r.state) <==> r.committed.Some?)
    ensures Creates(tool) && !IsPending(s) && IsSinglePoint(tool.value.kind) ==>
      && r.state == Idle
      && r.committed == Some(Drawing(freshId, tool.value.kind, Some([PixelToChart(vp, pixel)]), Some(DefaultAttributes(tool.value.kind))))
    ensures Creates(tool) && !IsPending(s) && !IsSinglePoint(tool.value.kind) ==>
      && IsTwoPoint(tool.value.kind)
      && r.committed.None?
      && r.state.drawingStart == Some(pixel)
      && r.state.tempDrawing == Some(Drawing(freshId, tool.value.kind, Some([PixelToChart(vp, pixel)]), Some(DefaultAttributes(tool.value.kind))))
    ensures Creates(tool) && IsPending(s) ==>
      var temp := s.tempDrawing.value;
      && r.state == Idle
      && r.committed == Some(temp.(points := Some([temp.points.value[0], PixelToChart(vp, pixel)])))
  {
    if !Creates(tool) then ClickOutcome(s, None)
    else
      var t := tool.value.kind;
      var coords := PixelToChart(vp, pixel);
      if s.drawingStart.None? then
        if t == HorizontalLine || t == Text then
          ClickOutcome(s.(drawingStart := None, currentPoint := None),
                       Some(Drawing(freshId, t, Some([coords]), Some(DefaultAttributes(t)))))
        else
          ClickOutcome(s.(drawingStart := Some(pixel), tempDrawing := Some(Drawing(freshId, t, Some([coords]), Some(DefaultAttributes(t))))),
                       None)
      else
        var temp := s.tempDrawing.value;
        ClickOutcome(ChartState(None, None, None), Some(temp.(points := Some([temp.points.value[0], coords]))))
  }

  /** `handleMouseMove`: record the raw pixel pointer, but only while a creation is pending. */
  function MouseMove(s: ChartState, pixel: Point): (r: ChartState)
    ensures Wf(s) ==> Wf(r)
    ensures !IsPending(s) ==> r == s
    ensures IsPending(s) ==> r.currentPoint == Some(pixel)
    ensures r.drawingStart == s.drawingStart && r.tempDrawing == s.tempDrawing
  {
    if s.drawingStart.None? then s else s.(currentPoint := Some(pixel))
  }

  /** The preview the chart overlays: shown only with a first click, a tracked pointer and a half-built drawing. */
  function ChartPreview(s: ChartState): (r: Option<Geometry.Shape>)
    ensures r.Some? ==> IsPending(s) && s.currentPoint.Some? && s.tempDrawing.Some?
    ensures IsPending(s) && s.currentPoint.Some? && s.tempDrawing.Some? ==>
      r == Preview.RenderPreview(s.drawingStart.value, s.currentPoint.value, s.tempDrawing.value.kind)
  {
    if s.drawingStart.Some? && s.currentPoint.Some? && s.tempDrawing.Some? then
      Preview.RenderPreview(s.drawingStart.value, s.currentPoint.value, s.tempDrawing.value.kind)
    else None
  }

  // ----- scenarios -----

  /** A single-point tool commits a one-point drawing of its type and stays idle, so the next click starts afresh. */
  lemma SingleClickCommitsOnePoint(tool: Tool, p: Point, q: Point, vp: Viewport, id1: string, id2: string)
    requires IsSinglePoint(tool.kind) && PixelMappable(vp)
    ensures var first := Click(Idle, Some(tool), p, vp, id1);
      && first.state == Idle
      && first.committed.Some? && first.committed.value.kind == tool.kind
      && first.committed.value.points == Some([PixelToChart(vp, p)])
      && Click(first.state, Some(tool), q, vp, id2).committed.value.points == Some([PixelToChart(vp, q)])
  {
  }

  /** A two-point tool commits after the second click, with both clicks' domain points in order and the first click's id. */
  lemma TwoClicksCommitTwoPoints(tool: Tool, p: Point, q: Point, vp1: Viewport, vp2: Viewport, id1: string, id2: string)
    requires IsTwoPoint(tool.kind) && PixelMappable(vp1) && PixelMappable(vp2)
    ensures var first := Click(Idle, Some(tool), p, vp1, id1);
      var second := Click(first.state, Some(tool), q, vp2, id2);
      && first.committed.None? && IsPending(first.state)
      && second.state == Idle
      && second.committed == Some(Drawing(id1, tool.kind, Some([PixelToChart(vp1, p), PixelToChart(vp2, q)]), Some(DefaultAttributes(tool.kind))))
  {
  }

  /**
   * Changing tool does not reset a pending creation: the next click with any
   * creating tool, even a single-point one, commits the earlier tool's
   * two-point drawing.
   */
  lemma ToolChangeKeepsPending(first: Tool, next: Tool, p: Point, q: Point, vp: Viewport, id1: string, id2: string)
    requires IsTwoPoint(first.kind) && next.kind != Select && PixelMappable(vp)
    ensures var s := Click(Idle, Some(first), p, vp, id1).state;
      var c := Click(s, Some(next), q, vp, id2).committed;
      c.Some? && c.value.kind == first.kind && |c.value.points.value| == 2
  {
  }

  /** While `select` is active, or no tool is, clicks leave a pending creation untouched. */
  lemma SelectToolFreezesPending(tool: Tool, p: Point, q: Point, vp: Viewport, id1: string, id2: string)
    requires IsTwoPoint(tool.kind) && PixelMappable(vp)
    ensures var s := Click(Idle, Some(tool), p, vp, id1).state;
      && Click(s, Some(Tool(Select, "select-tool")), q, vp, id2) == ClickOutcome(s, None)
      && Click(s, None, q, vp, id2) == ClickOutcome(s, None)
  {
  }

  /** Pointer motion never alters what the next click commits. */
  lemma MoveDoesNotAffectCommit(s: ChartState, tool: Option<Tool>, m: Point, p: Point, vp: Viewport, id: string)
    requires Wf(s) && (Creates(tool) ==> PixelMappable(vp))
    ensures Click(MouseMove(s, m), tool, p, vp, id).committed == Click(s, tool, p, vp, id).committed
  {
  }

  /**
   * The committed shape is the shape the preview showed: pressing at `p`,
   * moving to `q` and clicking there renders, through the domain round trip,
   * exactly the preview that was on screen just before the second click.
   */
  lemma {:induction false} CommitMatchesPreview(tool: Tool, p: Point, q: Point, vp: Viewport, id1: string, id2: string)
    requires IsTwoPoint(tool.kind) && Invertible(vp)
    ensures var pending := MouseMove(Click(Idle, Some(tool), p, vp, id1).state, q);
      var committed := Click(pending, Some(tool), q, vp, id2).committed.value;
      ChartPreview(pending).Some? && DrawingLayer.RenderDrawing(committed, vp) == ChartPreview(pending)
  {
    PixelRoundTrip(vp, p);
    PixelRoundTrip(vp, q);
  }
}

=== FILE: drawing_layer.dfy ===
/**
 * The drawing layer (src/components/DrawingLayer.tsx): per-type geometry of a
 * committed drawing, the grips shown on the selected or hovered drawing, and
 * the single drag slot that moves one control point at a time.
 *
 * Event plumbing (window listeners, bounding rectangles, propagation) is
 * replaced by pure functions of explicit state. The drag handler receives the
 * pointer's window position and the corner of the element it measures
 * against, and computes the relative position itself.
 */
module DrawingLayer {
  import opened Wrappers
  import opened Types
  import opened Coordinates
  import opened Geometry

  // ----- style -----

  datatype Style = Style(stroke: string, strokeWidth: real, dashArray: string)

  const DefaultStroke := "#ffffff"
  const DefaultStrokeWidth := 2.0
  const DefaultFontSize := 14.0

  function AttrColor(d: Drawing): Option<string>
  {
    if d.attributes.Some? then d.attributes.value.color else None
  }

  function AttrLineWidth(d: Drawing): Option<real>
  {
    if d.attributes.Some? then d.attributes.value.lineWidth else None
  }

  function AttrText(d: Drawing): Option<string>
  {
    if d.attributes.Some? then d.attributes.value.text else None
  }

  function AttrLineStyle(d: Drawing): Option<LineStyle>
  {
    if d.attributes.Some? then d.attributes.value.lineStyle else None
  }

  /** `color || '#ffffff'`: a missing or empty colour falls back to white. */
  function StrokeOf(d: Drawing): (c: string)
    ensures c != ""
    ensures AttrColor(d).Some? && AttrColor(d).value != "" ==> c == AttrColor(d).value
    ensures !(AttrColor(d).Some? && AttrColor(d).value != "") ==> c == DefaultStroke
  {
    var c := AttrColor(d);
    if c.Some? && c.value != "" then c.value else DefaultStroke
  }

  /**
   * The stroke style of a drawing: colour and width fall back to the defaults
   * when missing or falsy, and only `dashed` and `dotted` produce a dash pattern.
   */
  function StyleOf(d: Drawing): (st: Style)
    ensures st.stroke != "" && st.strokeWidth != 0.0
    ensures AttrColor(d).Some? && AttrColor(d).value != "" ==> st.stroke == AttrColor(d).value
    ensures st.stroke == StrokeOf(d)
    ensures AttrLineWidth(d).Some? && AttrLineWidth(d).value != 0.0 ==> st.strokeWidth == AttrLineWidth(d).value
    ensures !(AttrLineWidth(d).Some? && AttrLineWidth(d).value != 0.0) ==> st.strokeWidth == DefaultStrokeWidth
    ensures st.dashArray == "5,5" <==> AttrLineStyle(d) == Some(Dashed)
    ensures st.dashArray == "2,2" <==> AttrLineStyle(d) == Some(Dotted)
    ensures st.dashArray == "none" <==> AttrLineStyle(d) != Some(Dashed) && AttrLineStyle(d) != Some(Dotted)
  {
    var w := AttrLineWidth(d);
    var dash := if AttrLineStyle(d) == Some(Dashed) then "5,5"
                else if AttrLineStyle(d) == Some(Dotted) then "2,2"
                else "none";
    Style(StrokeOf(d), if w.Some? && w.value != 0.0 then w.value else DefaultStrokeWidth, dash)
  }

  /** The text size: eight times a non-zero line width, else 14. */
  function FontSize(d: Drawing): (size: real)
    ensures AttrLineWidth(d).Some? && AttrLineWidth(d).value != 0.0 ==> size == 8.0 * AttrLineWidth(d).value
    ensures AttrLineWidth(d).None? || AttrLineWidth(d).value == 0.0 ==> size == DefaultFontSize
  {
    var w := AttrLineWidth(d);
    if w.Some? && w.value != 0.0 then w.value * 8.0 else DefaultFontSize
  }

  // ----- geometry -----

  /** Nothing is drawn for missing or empty points, for a two-point type with fewer than two, or for `select`. */
  predicate Renders(d: Drawing)
  {
    && d.points.Some? && |d.points.value| > 0
    && d.kind != Select
    && (IsTwoPoint(d.kind) ==> |d.points.value| >= 2)
  }

  /** `renderDrawing`: one fixed geometry rule per drawing type, in pixel space. */
  function RenderDrawing(d: Drawing, vp: Viewport): (r: Option<Shape>)
    requires DomainMappable(vp)
    ensures r.Some? <==> Renders(d)
    ensures r.Some? && d.kind == HorizontalLine ==>
      var y := ChartToPixel(vp, d.points.value[0]).y;
      r.value == Line(vp.margin.left, y, vp.chartWidth - vp.margin.right, y)
    ensures r.Some? && d.kind == TrendLine ==>
      r.value == SegmentBetween(ChartToPixel(vp, d.points.value[0]), ChartToPixel(vp, d.points.value[1]))
    ensures r.Some? && d.kind == Rectangle ==>
      r.value == BoxBetween(ChartToPixel(vp, d.points.value[0]), ChartToPixel(vp, d.points.value[1]))
    ensures r.Some? && d.kind == Ellipse ==>
      r.value == OvalBetween(ChartToPixel(vp, d.points.value[0]), ChartToPixel(vp, d.points.value[1]))
    ensures r.Some? && d.kind == Text ==>
      var at := ChartToPixel(vp, d.points.value[0]);
      r.value.Label? && r.value.x == at.x && r.value.y == at.y
      && r.value.fontSize == FontSize(d) && r.value.fill == StrokeOf(d)
      && (AttrText(d).Some? && AttrText(d).value != "" ==> r.value.content == AttrText(d).value)
      && (AttrText(d).None? || AttrText(d).value == "" ==> r.value.content == "Text")
  {
    if d.points.None? || |d.points.value| == 0 then None
    else
      var pts := d.points.value;
      match d.kind
      case HorizontalLine =>
        var y := ChartToPixel(vp, pts[0]).y;
        Some(Line(vp.margin.left, y, vp.chartWidth - vp.margin.right, y))
      case TrendLine =>
        if |pts| < 2 then None else Some(SegmentBetween(ChartToPixel(vp, pts[0]), ChartToPixel(vp, pts[1])))
      case Rectangle =>
        if |pts| < 2 then None else Some(BoxBetween(ChartToPixel(vp, pts[0]), ChartToPixel(vp, pts[1])))
      case Ellipse =>
        if |pts| < 2 then None else Some(OvalBetween(ChartToPixel(vp, pts[0]), ChartToPixel(vp, pts[1])))
      case Text =>
        var at := ChartToPixel(vp, pts[0]);
        var t := AttrText(d);
        Some(Label(at.x, at.y, FontSize(d), StrokeOf(d), if t.Some? && t.value != "" then t.value else "Text"))
      case Select => None
  }

  // ----- grips -----

  /** One grip: the control point it moves and where it is drawn. */
  datatype GripHandle = GripHandle(index: nat, at: Point)

  /** Grips are shown on the selected drawing and on the hovered one. */
  predicate ShowsGrips(d: Drawing, selected: Option<string>, hovered: Option<string>)
  {
    selected == Some(d.id) || hovered == Some(d.id)
  }

  /** Grips at every point of `pts`, numbered from zero. */
  function GripsAt(pts: seq<Point>, vp: Viewport): (gs: seq<GripHandle>)
    requires DomainMappable(vp)
    ensures |gs| == |pts|
    ensures forall k :: 0 <= k < |gs| ==> gs[k] == GripHandle(k, ChartToPixel(vp, pts[k]))
  {
    seq(|pts|, k requires 0 <= k < |pts| => GripHandle(k, ChartToPixel(vp, pts[k])))
  }

  /**
   * `renderGripBoxes`: one grip per control point of a rendered drawing that is
   * selected or hovered; single-point types offer only their first point.
   */
  function Grips(d: Drawing, selected: Option<string>, hovered: Option<string>, vp: Viewport): (gs: seq<GripHandle>)
    requires DomainMappable(vp)
    ensures |gs| > 0 <==> Renders(d) && ShowsGrips(d, selected, hovered)
    ensures |gs| > 0 ==> |gs| <= |d.points.value|
    ensures |gs| > 0 && IsSinglePoint(d.kind) ==> |gs| == 1
    ensures |gs| > 0 && IsTwoPoint(d.kind) ==> |gs| == |d.points.value|
    ensures forall k :: 0 <= k < |gs| ==> gs[k].index == k && gs[k].at == ChartToPixel(vp, d.points.value[k])
  {
    if !Renders(d) || !ShowsGrips(d, selected, hovered) then []
    else if IsSinglePoint(d.kind) then GripsAt(d.points.value[..1], vp)
    else GripsAt(d.points.value, vp)
  }

  /** The grips sit exactly on the points that define the rendered shape. */
  lemma {:induction false} GripsOnShape(d: Drawing, selected: Option<string>, vp: Viewport)
    requires DomainMappable(vp) && Renders(d) && selected == Some(d.id)
    ensures var gs := Grips(d, selected, None, vp); var s := RenderDrawing(d, vp).value;
      && (d.kind == TrendLine ==> gs[0].at == Point(s.x1, s.y1) && gs[1].at == Point(s.x2, s.y2))
      && (d.kind == Rectangle ==> Min(gs[0].at.x, gs[1].at.x) == s.x && Max(gs[0].at.y, gs[1].at.y) == s.y + s.height)
      && (d.kind == Ellipse ==> (gs[0].at.x + gs[1].at.x) / 2.0 == s.cx && (gs[0].at.y + gs[1].at.y) / 2.0 == s.cy)
      && (d.kind == HorizontalLine ==> gs[0].at.y == s.y1 && gs[0].at.y == s.y2)
      && (d.kind == Text ==> gs[0].at == Point(s.x, s.y))
  {
    var gs := Grips(d, selected, None, vp);
    assert |gs| > 0;
    if IsTwoPoint(d.kind) {
      assert gs[1].at == ChartToPixel(vp, d.points.value[1]);
    }
  }

  // ----- drag slot -----

  /** The drag slot's content: which drawing and which of its points is being dragged. */
  datatype Grip = Grip(drawingId: string, pointIndex: nat)

  /** The call the move handler makes: `onDrawingUpdate(id, patch)`. */
  datatype UpdateCall = UpdateCall(id: string, patch: Attributes)

  /** Pressing a grip fills the slot with that drawing and point. */
  function GripPress(d: Drawing, g: GripHandle): (slot: Option<Grip>)
    ensures slot.Some? && slot.value.drawingId == d.id && slot.value.pointIndex == g.index
  {
    Some(Grip(d.id, g.index))
  }

  /** Releasing the pointer empties the slot. */
  function MouseUp(slot: Option<Grip>): (r: Option<Grip>)
    ensures r.None?
  {
    None
  }

  /** The drag target: the slot is full and its drawing, looked up by id, exists and has points. */
  predicate Dragging(slot: Option<Grip>, ds: seq<Drawing>)
  {
    slot.Some? && Find(ds, slot.value.drawingId).Some? && Find(ds, slot.value.drawingId).value.points.Some?
  }

  /** A live drag addresses an existing point of its drawing (the only indices grips offer). */
  predicate DragInRange(slot: Option<Grip>, ds: seq<Drawing>)
  {
    Dragging(slot, ds) ==> slot.value.pointIndex < |Find(ds, slot.value.drawingId).value.points.value|
  }

  /** The mapping the move handler writes out inline; it is `pixelToChartCoords` with the same parameters. */
  function DragMapping(vp: Viewport, p: Point): (d: Point)
    requires PixelMappable(vp)
    ensures d == PixelToChart(vp, p)
  {
    Point(
      vp.xDomain.0 + ((p.x - vp.margin.left) / (vp.chartWidth - vp.margin.left - vp.margin.right)) * (vp.xDomain.1 - vp.xDomain.0),
      vp.yDomain.1 - ((p.y - vp.margin.top) / (vp.chartHeight - vp.margin.top - vp.margin.bottom)) * (vp.yDomain.1 - vp.yDomain.0))
  }

  /** A window pointer position measured from an element's top-left corner (`clientX - rect.left`, `clientY - rect.top`). */
  function Relative(client: Point, origin: Point): (p: Point)
    ensures p.x + origin.x == client.x && p.y + origin.y == client.y
  {
    Point(client.x - origin.x, client.y - origin.y)
  }

  /**
   * The window `mousemove` handler. `client` is the pointer in window
   * coordinates and `origin` the top-left corner of the element the handler
   * measures against, the first `svg` of the document (`None` when there is
   * none). While a drag is live and that element exists, replace the dragged
   * point by the domain position of the pointer relative to it and ask for an
   * update carrying all existing attributes plus the new point list.
   * Otherwise do nothing.
   */
  function DragMove(slot: Option<Grip>, ds: seq<Drawing>, vp: Viewport, client: Point, origin: Option<Point>): (r: Option<UpdateCall>)
    requires DragInRange(slot, ds)
    requires Dragging(slot, ds) ==> PixelMappable(vp)
    ensures r.Some? <==> Dragging(slot, ds) && origin.Some?
    ensures r.Some? ==> r.value.patch.points.Some?
    ensures r.Some? ==>
      var d := Find(ds, slot.value.drawingId).value;
      var i := slot.value.pointIndex;
      var newPoints := r.value.patch.points.value;
      && r.value.id == d.id
      && |newPoints| == |d.points.value|
      && newPoints[i] == PixelToChart(vp, Relative(client, origin.value))
      && (forall j :: 0 <= j < |newPoints| && j != i ==> newPoints[j] == d.points.value[j])
      && r.value.patch == Spread(d.attributes, PointsPatch(newPoints))
  {
    if !Dragging(slot, ds) || origin.None? then None
    else
      var d := Find(ds, slot.value.drawingId).value;
      var newPoints := d.points.value[slot.value.pointIndex := DragMapping(vp, Relative(client, origin.value))];
      Some(UpdateCall(slot.value.drawingId, Spread(d.attributes, PointsPatch(newPoints))))
  }

  /**
   * The dragged point lands at the domain position under the cursor, measured
   * on the drawing surface whose corner is `surface`, exactly when the element
   * the handler measures against has that same corner. Any other element puts
   * the point off by the two corners' offset.
   */
  lemma {:induction false} DropUnderCursor(slot: Option<Grip>, ds: seq<Drawing>, vp: Viewport, client: Point, origin: Point, surface: Point)
    requires DragInRange(slot, ds) && Dragging(slot, ds)
    requires Invertible(vp)
    ensures var newPoints := DragMove(slot, ds, vp, client, Some(origin)).value.patch.points.value;
      newPoints[slot.value.pointIndex] == PixelToChart(vp, Relative(client, surface)) <==> origin == surface
  {
    var newPoints := DragMove(slot, ds, vp, client, Some(origin)).value.patch.points.value;
    if newPoints[slot.value.pointIndex] == PixelToChart(vp, Relative(client, surface)) {
      PixelRoundTrip(vp, Relative(client, origin));
      PixelRoundTrip(vp, Relative(client, surface));
      assert Relative(client, origin) == Relative(client, surface);
    }
  }

  /** A grip offered on a drawing in the list, once pressed, addresses an existing point of it. */
  lemma {:induction false} PressedGripInRange(ds: seq<Drawing>, k: nat, selected: Option<string>, hovered: Option<string>, vp: Viewport, g: GripHandle)
    requires DomainMappable(vp)
    requires k < |ds| && FirstIndex(ds, ds[k].id) == k
    requires g in Grips(ds[k], selected, hovered, vp)
    ensures DragInRange(GripPress(ds[k], g), ds)
    ensures MouseUp(GripPress(ds[k], g)).None?
  {
    var gs := Grips(ds[k], selected, hovered, vp);
    var j :| 0 <= j < |gs| && gs[j] == g;
    assert Find(ds, ds[k].id) == Some(ds[k]);
  }

  /** Once the slot is empty no pointer motion changes anything. */
  lemma NoDragAfterRelease(slot: Option<Grip>, ds: seq<Drawing>, vp: Viewport, client: Point, origin: Option<Point>)
    ensures DragMove(MouseUp(slot), ds, vp, client, origin).None?
  {
  }
}

=== FILE: drawing_tools.dfy ===
/**
 * The drawing-tools hook (src/hooks/useDrawingTools.ts): a second, unused
 * creation state machine that accumulates points on a current drawing.
 */
module DrawingTools {
  import opened Wrappers
  import opened Types

  datatype ToolsState = ToolsState(isDrawing: bool, current: Option<Drawing>, mode: Option<DrawingType>)

  const Initial := ToolsState(false, None, None)

  /** The attributes `startDrawing` gives a new drawing: white, width 2, and no line style. */
  function StartAttributes(t: DrawingType): (a: Attributes)
    ensures a.kind == Some(t) && a.color == Some("#ffffff") && a.lineWidth == Some(2.0)
    ensures a.lineStyle.None? && a.text.None? && a.points.None?
  {
    NoAttributes.(kind := Some(t), color := Some("#ffffff"), lineWidth := Some(2.0))
  }

  /** `startDrawing`: a fresh one-point drawing becomes current and drawing is on. */
  function StartDrawing(s: ToolsState, t: DrawingType, p: Point, freshId: string): (r: ToolsState)
    ensures r.isDrawing && r.mode == s.mode
    ensures r.current == Some(Drawing(freshId, t, Some([p]), Some(StartAttributes(t))))
  {
    s.(isDrawing := true, current := Some(Drawing(freshId, t, Some([p]), Some(StartAttributes(t)))))
  }

  /** `updateDrawing`: append the point to the current drawing; without one, nothing changes. */
  function UpdateDrawing(s: ToolsState, p: Point): (r: ToolsState)
    ensures r.isDrawing == s.isDrawing && r.mode == s.mode
    ensures s.current.None? ==> r == s
    ensures s.current.Some? ==> r.current.Some?
    ensures s.current.Some? ==> r.current.value.points == Some(s.current.value.points.GetOr([]) + [p])
    ensures s.current.Some? ==> r.current.value.(points := s.current.value.points) == s.current.value
  {
    if s.current.Some? then
      var d := s.current.value;
      s.(current := Some(d.(points := Some(d.points.GetOr([]) + [p]))))
    else s
  }

  /** `finishDrawing`: hand back the current drawing (if any) and reset to not drawing. */
  function FinishDrawing(s: ToolsState): (r: (ToolsState, Option<Drawing>))
    ensures r.1 == s.current
    ensures !r.0.isDrawing && r.0.current.None? && r.0.mode == s.mode
  {
    (s.(isDrawing := false, current := None), s.current)
  }

  /** `setDrawingMode`: only the mode changes. */
  function SetDrawingMode(s: ToolsState, m: Option<DrawingType>): (r: ToolsState)
    ensures r.mode == m && r.(mode := s.mode) == s
  {
    s.(mode := m)
  }

  /** A run of `updateDrawing` calls, one per point, in order. */
  function UpdateMany(s: ToolsState, ps: seq<Point>): ToolsState
    decreases |ps|
  {
    if ps == [] then s else UpdateMany(UpdateDrawing(s, ps[0]), ps[1..])
  }

  /** The hook's states pair "drawing" with "has a current drawing". */
  predicate Wf(s: ToolsState)
  {
    s.isDrawing <==> s.current.Some?
  }

  /** Starting, updating and finishing keep drawing and the current drawing in step; none touches the mode. */
  lemma {:induction false} StepsKeepWf(s: ToolsState, t: DrawingType, p: Point, id: string, ps: seq<Point>)
    requires Wf(s)
    ensures Wf(StartDrawing(s, t, p, id)) && Wf(FinishDrawing(s).0)
    ensures Wf(UpdateMany(s, ps)) && UpdateMany(s, ps).mode == s.mode
    decreases |ps|
  {
    if ps != [] {
      StepsKeepWf(UpdateDrawing(s, ps[0]), t, p, id, ps[1..]);
    }
  }

  /** Points pile up in call order on a drawing with a point list; nothing else about it changes. */
  lemma {:induction false} UpdateManyAppends(s: ToolsState, ps: seq<Point>)
    requires s.current.Some? && s.current.value.points.Some?
    ensures UpdateMany(s, ps).current.Some?
    ensures UpdateMany(s, ps).current.value == s.current.value.(points := Some(s.current.value.points.value + ps))
    decreases |ps|
  {
    if ps == [] {
      assert s.current.value.points.value + ps == s.current.value.points.value;
    } else {
      var next := UpdateDrawing(s, ps[0]);
      UpdateManyAppends(next, ps[1..]);
      assert s.current.value.points.value + [ps[0]] + ps[1..] == s.current.value.points.value + ps;
    }
  }

  /** Start at `p`, add `ps`, finish: the drawing handed back has points `[p] + ps` and the start attributes. */
  lemma {:induction false} StartUpdateFinish(s: ToolsState, t: DrawingType, p: Point, id: string, ps: seq<Point>)
    ensures var r := FinishDrawing(UpdateMany(StartDrawing(s, t, p, id), ps));
      && r.1 == Some(Drawing(id, t, Some([p] + ps), Some(StartAttributes(t))))
      && !r.0.isDrawing && r.0.mode == s.mode
  {
    var started := StartDrawing(s, t, p, id);
    UpdateManyAppends(started, ps);
    StepsKeepWf(started, t, p, id, ps);
  }
}

=== FILE: geometry.dfy ===
/** The SVG primitives the drawing layer and the preview layer emit, in pixel space. */
module Geometry {
  import opened Types

  datatype Shape =
    | Line(x1: real, y1: real, x2: real, y2: real)
    | Rect(x: real, y: real, width: real, height: real)
    | Oval(cx: real, cy: real, rx: real, ry: real)
    | Label(x: real, y: real, fontSize: real, fill: string, content: string)

  function Min(a: real, b: real): real
  {
    if a <= b then a else b
  }

  function Max(a: real, b: real): real
  {
    if a >= b then a else b
  }

  function Abs(a: real): real
  {
    if a >= 0.0 then a else -a
  }

  /** `<line>` from one pixel point to the other. */
  function SegmentBetween(p: Point, q: Point): (s: Shape)
    ensures s.Line? && Point(s.x1, s.y1) == p && Point(s.x2, s.y2) == q
  {
    Line(p.x, p.y, q.x, q.y)
  }

  /** `<rect>` normalised from two opposite corners: the box spans exactly from the smaller to the larger coordinate. */
  function BoxBetween(p: Point, q: Point): (s: Shape)
    ensures s.Rect? && s.width >= 0.0 && s.height >= 0.0
    ensures s.x == Min(p.x, q.x) && s.x + s.width == Max(p.x, q.x)
    ensures s.y == Min(p.y, q.y) && s.y + s.height == Max(p.y, q.y)
  {
    Rect(Min(p.x, q.x), Min(p.y, q.y), Abs(q.x - p.x), Abs(q.y - p.y))
  }

  /** `<ellipse>` inscribed in the same box: centred on the midpoint, radii half the absolute deltas. */
  function OvalBetween(p: Point, q: Point): (s: Shape)
    ensures s.Oval? && s.rx >= 0.0 && s.ry >= 0.0
    ensures s.cx - s.rx == Min(p.x, q.x) && s.cx + s.rx == Max(p.x, q.x)
    ensures s.cy - s.ry == Min(p.y, q.y) && s.cy + s.ry == Max(p.y, q.y)
  {
    Oval((p.x + q.x) / 2.0, (p.y + q.y) / 2.0, Abs(q.x - p.x) / 2.0, Abs(q.y - p.y) / 2.0)
  }

  /** The rectangle and the ellipse drawn from the same two points share one bounding box. */
  lemma BoxContainsOval(p: Point, q: Point)
    ensures var b := BoxBetween(p, q); var e := OvalBetween(p, q);
      && b.x == e.cx - e.rx && b.width == 2.0 * e.rx
      && b.y == e.cy - e.ry && b.height == 2.0 * e.ry
  {
  }

  /** The normalised box does not depend on which corner came first. */
  lemma BoxSymmetric(p: Point, q: Point)
    ensures BoxBetween(p, q) == BoxBetween(q, p)
    ensures OvalBetween(p, q) == OvalBetween(q, p)
  {
  }
}

=== FILE: preview.dfy ===
/**
 * The live preview of an unfinished two-point drawing
 * (src/components/drawing/DrawingPreview.tsx). It works on raw pixel points and
 * never touches the coordinate mapper.
 */
module Preview {
  import opened Wrappers
  import opened Types
  import opened Geometry

  /** The preview's fixed style: white, width 2, dashed `5,5`, no fill. */
  const PreviewStroke := "#ffffff"
  const PreviewStrokeWidth := 2.0
  const PreviewDash := "5,5"

  /** `renderPreview`: the shape between the start pixel and the pointer, or nothing for single-point and select types. */
  function RenderPreview(start: Point, current: Point, t: DrawingType): (r: Option<Shape>)
    ensures r.Some? <==> IsTwoPoint(t)
    ensures t == TrendLine ==> r == Some(SegmentBetween(start, current))
    ensures t == Rectangle ==> r == Some(BoxBetween(start, current))
    ensures t == Ellipse ==> r == Some(OvalBetween(start, current))
  {
    match t
    case TrendLine => Some(SegmentBetween(start, current))
    case Rectangle => Some(BoxBetween(start, current))
    case Ellipse => Some(OvalBetween(start, current))
    case _ => None
  }
}

=== FILE: range_slider.dfy ===
/**
 * The display-range slider (src/components/RangeSlider.tsx): two percentage
 * handles kept at least thirty rows apart, with day labels under them.
 */
module RangeSlider {

  /** The smallest gap between the handles, in percent: thirty rows out of `totalDays`. */
  function MinRange(totalDays: nat): (m: real)
    requires totalDays > 0
    ensures m > 0.0
    ensures m * totalDays as real == 3000.0
  {
    (30.0 / totalDays as real) * 100.0
  }

  /** `handleStartChange`: the start handle follows the input but stops `MinRange` short of the end; the end stays. */
  function StartChange(value: (real, real), input: int, totalDays: nat): (r: (real, real))
    requires totalDays > 0
    ensures r.1 == value.1
    ensures r.0 <= input as real && r.0 <= value.1 - MinRange(totalDays)
    ensures r.0 == input as real || r.0 == value.1 - MinRange(totalDays)
  {
    var limit := value.1 - MinRange(totalDays);
    (if input as real <= limit then input as real else limit, value.1)
  }

  /** `handleEndChange`: the end handle follows the input but stays `MinRange` past the start; the start stays. */
  function EndChange(value: (real, real), input: int, totalDays: nat): (r: (real, real))
    requires totalDays > 0
    ensures r.0 == value.0
    ensures r.1 >= input as real && r.1 >= value.0 + MinRange(totalDays)
    ensures r.1 == input as real || r.1 == value.0 + MinRange(totalDays)
  {
    var limit := value.0 + MinRange(totalDays);
    (value.0, if input as real >= limit then input as real else limit)
  }

  /** `Math.round`: the nearest integer, halves rounding up. */
  function Round(x: real): (n: int)
    ensures x - 0.5 < n as real <= x + 0.5
  {
    (x + 0.5).Floor
  }

  /** The label under a handle: the handle's percentage of `totalDays`, rounded. */
  function DayLabel(v: real, totalDays: nat): (days: int)
    ensures v / 100.0 * totalDays as real - 0.5 < days as real <= v / 100.0 * totalDays as real + 0.5
  {
    Round(v / 100.0 * totalDays as real)
  }

  /** After either handle moves, the handles are at least `MinRange` apart. */
  lemma HandlesStayApart(value: (real, real), input: int, totalDays: nat)
    requires totalDays > 0
    ensures var r := StartChange(value, input, totalDays); r.1 - r.0 >= MinRange(totalDays)
    ensures var r := EndChange(value, input, totalDays); r.1 - r.0 >= MinRange(totalDays)
  {
  }
}

=== FILE: store.dfy ===
/**
 * The drawing store (src/store/useStore.ts): preferences, an insertion-ordered
 * sequence of drawings (insertion order is paint order) and one selection slot.
 * Every operation is a pure transition from one store value to the next.
 */
module Store {
  import opened Wrappers
  import opened Types

  datatype Timeframe = OneDay | FiveDays | OneMonth | ThreeMonths | OneYear
  datatype Theme = Dark | Light

  datatype Preferences = Preferences(
    timeframe: Timeframe,
    theme: Theme,
    showVolume: bool,
    baseSymbol: string,
    quoteSymbol: string,
    displayRange: (real, real))

  /** `Partial<ChartPreferences>`. */
  datatype PreferencesPatch = PreferencesPatch(
    timeframe: Option<Timeframe>,
    theme: Option<Theme>,
    showVolume: Option<bool>,
    baseSymbol: Option<string>,
    quoteSymbol: Option<string>,
    displayRange: Option<(real, real)>)

  const NoPreferences := PreferencesPatch(None, None, None, None, None, None)

  datatype StoreState = StoreState(preferences: Preferences, drawings: seq<Drawing>, selected: Option<string>)

  /** The store's own initial display range, a fixed 60%..100%. */
  const InitialDisplayRange: (real, real) := (60.0, 100.0)

  const InitialPreferences := Preferences(OneMonth, Dark, true, "GLD", "SLV", InitialDisplayRange)

  /** The store at application start: default preferences, no drawings, nothing selected. */
  const Initial := StoreState(InitialPreferences, [], None)

  /** `setPreferences`: a shallow merge of the given fields over the current preferences. */
  function SetPreferences(s: StoreState, patch: PreferencesPatch): (r: StoreState)
    ensures r.drawings == s.drawings && r.selected == s.selected
    ensures patch.displayRange.Some? ==> r.preferences.displayRange == patch.displayRange.value
    ensures patch.displayRange.None? ==> r.preferences.displayRange == s.preferences.displayRange
    ensures patch.showVolume.Some? ==> r.preferences.showVolume == patch.showVolume.value
    ensures patch.showVolume.None? ==> r.preferences.showVolume == s.preferences.showVolume
    ensures patch.timeframe.Some? ==> r.preferences.timeframe == patch.timeframe.value
    ensures patch.timeframe.None? ==> r.preferences.timeframe == s.preferences.timeframe
    ensures patch.theme.Some? ==> r.preferences.theme == patch.theme.value
    ensures patch.theme.None? ==> r.preferences.theme == s.preferences.theme
    ensures patch.baseSymbol.Some? ==> r.preferences.baseSymbol == patch.baseSymbol.value
    ensures patch.baseSymbol.None? ==> r.preferences.baseSymbol == s.preferences.baseSymbol
    ensures patch.quoteSymbol.Some? ==> r.preferences.quoteSymbol == patch.quoteSymbol.value
    ensures patch.quoteSymbol.None? ==> r.preferences.quoteSymbol == s.preferences.quoteSymbol
    ensures patch == NoPreferences ==> r == s
  {
    var p := s.preferences;
    s.(preferences := Preferences(
      patch.timeframe.GetOr(p.timeframe),
      patch.theme.GetOr(p.theme),
      patch.showVolume.GetOr(p.showVolume),
      patch.baseSymbol.GetOr(p.baseSymbol),
      patch.quoteSymbol.GetOr(p.quoteSymbol),
      patch.displayRange.GetOr(p.displayRange)))
  }

  /** `addDrawing`: append at the end, so the new drawing is painted on top. */
  function AddDrawing(s: StoreState, d: Drawing): (r: StoreState)
    ensures |r.drawings| == |s.drawings| + 1
    ensures r.drawings[..|s.drawings|] == s.drawings
    ensures r.drawings[|s.drawings|] == d
    ensures r.selected == s.selected && r.preferences == s.preferences
  {
    s.(drawings := s.drawings + [d])
  }

  /**
   * The record `updateDrawing` puts in place of a matching drawing: id and type
   * kept, attributes shallow-merged with the patch, `points` replaced when the
   * patch carries points (an empty list is still an array and so still truthy).
   */
  function Patched(d: Drawing, patch: Attributes): (r: Drawing)
    ensures r.id == d.id && r.kind == d.kind
    ensures patch.points.Some? ==> r.points == patch.points
    ensures patch.points.None? ==> r.points == d.points
    ensures r.attributes == Some(Spread(d.attributes, patch))
  {
    d.(attributes := Some(Spread(d.attributes, patch)),
       points := if patch.points.Some? then patch.points else d.points)
  }

  /** The `map` inside `updateDrawing`: every drawing with the id is patched, all others kept. */
  function {:induction false} UpdateAll(ds: seq<Drawing>, id: string, patch: Attributes): (r: seq<Drawing>)
    ensures |r| == |ds|
    ensures forall i :: 0 <= i < |ds| && ds[i].id != id ==> r[i] == ds[i]
    ensures forall i :: 0 <= i < |ds| && ds[i].id == id ==> r[i] == Patched(ds[i], patch)
    ensures forall i :: 0 <= i < |ds| ==> r[i].id == ds[i].id && r[i].kind == ds[i].kind
  {
    if ds == [] then []
    else
      var head := if ds[0].id == id then Patched(ds[0], patch) else ds[0];
      var tail := UpdateAll(ds[1..], id, patch);
      assert forall i :: 1 <= i < |ds| ==> ([head] + tail)[i] == tail[i - 1];
      [head] + tail
  }

  /** `updateDrawing`: patch the drawings with that id in place; order, length and selection are kept. */
  function UpdateDrawing(s: StoreState, id: string, patch: Attributes): (r: StoreState)
    ensures r.selected == s.selected && r.preferences == s.preferences
    ensures |r.drawings| == |s.drawings|
    ensures forall i :: 0 <= i < |s.drawings| && s.drawings[i].id != id ==> r.drawings[i] == s.drawings[i]
    ensures forall i :: 0 <= i < |s.drawings| && s.drawings[i].id == id ==> r.drawings[i] == Patched(s.drawings[i], patch)
  {
    s.(drawings := UpdateAll(s.drawings, id, patch))
  }

  /** The `filter` inside `removeDrawing`: keep every drawing whose id differs, in order. */
  function {:induction false} Without(ds: seq<Drawing>, id: string): (r: seq<Drawing>)
    ensures |r| <= |ds|
    ensures forall i :: 0 <= i < |r| ==> r[i].id != id
    ensures forall d :: d in r <==> d in ds && d.id != id
    ensures !HasId(ds, id) ==> r == ds
  {
    if ds == [] then []
    else
      var tail := Without(ds[1..], id);
      assert !HasId(ds, id) ==> !HasId(ds[1..], id) by {
        if HasId(ds[1..], id) {
          var i :| 0 <= i < |ds[1..]| && ds[1..][i].id == id;
          assert ds[i + 1].id == id;
        }
      }
      assert forall d :: d in ds <==> d == ds[0] || d in ds[1..];
      if ds[0].id == id then tail else [ds[0]] + tail
  }

  /** `removeDrawing`: drop every drawing with the id; the selection is cleared exactly when it was that id. */
  function RemoveDrawing(s: StoreState, id: string): (r: StoreState)
    ensures forall i :: 0 <= i < |r.drawings| ==> r.drawings[i].id != id
    ensures forall d :: d in r.drawings <==> d in s.drawings && d.id != id
    ensures s.selected == Some(id) ==> r.selected == None
    ensures s.selected != Some(id) ==> r.selected == s.selected
    ensures r.preferences == s.preferences
  {
    StoreState(s.preferences, Without(s.drawings, id), if s.selected == Some(id) then None else s.selected)
  }

  /** `clearAllDrawings`: no drawings and no selection, whatever came before. */
  function ClearAllDrawings(s: StoreState): (r: StoreState)
    ensures r.drawings == [] && r.selected == None
    ensures r.preferences == s.preferences
  {
    s.(drawings := [], selected := None)
  }

  /** `setSelectedDrawing`: store exactly the given id (or null) without checking that such a drawing exists. */
  function SetSelectedDrawing(s: StoreState, id: Option<string>): (r: StoreState)
    ensures r.selected == id
    ensures r.drawings == s.drawings && r.preferences == s.preferences
  {
    s.(selected := id)
  }

  // ----- properties relating several operations -----

  /** Filtering distributes over concatenation, so `removeDrawing` keeps the survivors' relative (paint) order. */
  lemma {:induction false} WithoutConcat(a: seq<Drawing>, b: seq<Drawing>, id: string)
    ensures Without(a + b, id) == Without(a, id) + Without(b, id)
  {
    if a == [] {
      assert a + b == b;
    } else {
      assert (a + b)[1..] == a[1..] + b;
      WithoutConcat(a[1..], b, id);
    }
  }

  /** Removing an id no drawing carries changes neither the drawings nor the selection. */
  lemma RemoveAbsentIsNoOp(s: StoreState, id: string)
    requires !HasId(s.drawings, id) && s.selected != Some(id)
    ensures RemoveDrawing(s, id) == s
  {
  }

  /** Adding a drawing with a fresh id and removing that id again restores the drawings. */
  lemma {:induction false} AddThenRemove(s: StoreState, d: Drawing)
    requires !HasId(s.drawings, d.id)
    ensures RemoveDrawing(AddDrawing(s, d), d.id).drawings == s.drawings
  {
    WithoutConcat(s.drawings, [d], d.id);
    assert Without([d], d.id) == [] by {
      assert [d][1..] == [];
    }
    assert s.drawings + [] == s.drawings;
  }

  /** Updating an id no drawing carries leaves the store unchanged. */
  lemma {:induction false} UpdateAbsentIsNoOp(s: StoreState, id: string, patch: Attributes)
    requires !HasId(s.drawings, id)
    ensures UpdateDrawing(s, id, patch) == s
  {
    var r := UpdateDrawing(s, id, patch);
    assert forall i :: 0 <= i < |s.drawings| ==> s.drawings[i].id != id;
    assert r.drawings == s.drawings;
  }

  /** Applying the same patch twice is the same as applying it once. */
  lemma {:induction false} UpdateIdempotent(s: StoreState, id: string, patch: Attributes)
    ensures UpdateDrawing(UpdateDrawing(s, id, patch), id, patch) == UpdateDrawing(s, id, patch)
  {
    var once := UpdateDrawing(s, id, patch);
    var twice := UpdateDrawing(once, id, patch);
    forall i | 0 <= i < |s.drawings|
      ensures twice.drawings[i] == once.drawings[i]
    {
      if s.drawings[i].id == id {
        var d := s.drawings[i];
        assert Spread(Some(Spread(d.attributes, patch)), patch) == Spread(d.attributes, patch);
      }
    }
  }

  /**
   * The attribute fields an update leaves on a patched drawing: a field present
   * in the patch wins, every other field keeps its old value.
   */
  lemma PatchedAttributes(d: Drawing, patch: Attributes)
    ensures var a := Patched(d, patch).attributes.value; var prior := d.attributes.GetOr(NoAttributes);
      && a.color == (if patch.color.Some? then patch.color else prior.color)
      && a.lineWidth == (if patch.lineWidth.Some? then patch.lineWidth else prior.lineWidth)
      && a.lineStyle == (if patch.lineStyle.Some? then patch.lineStyle else prior.lineStyle)
      && a.text == (if patch.text.Some? then patch.text else prior.text)
      && a.kind == (if patch.kind.Some? then patch.kind else prior.kind)
      && a.points == (if patch.points.Some? then patch.points else prior.points)
  {
  }

  /** A valid selection is empty or names a drawing in the store. */
  predicate SelectionValid(s: StoreState)
  {
    s.selected.None? || HasId(s.drawings, s.selected.value)
  }

  /** Adding, updating, removing and clearing all keep a valid selection valid. */
  lemma {:induction false} OperationsKeepSelectionValid(s: StoreState, d: Drawing, id: string, patch: Attributes)
    requires SelectionValid(s)
    ensures SelectionValid(AddDrawing(s, d))
    ensures SelectionValid(UpdateDrawing(s, id, patch))
    ensures SelectionValid(RemoveDrawing(s, id))
    ensures SelectionValid(ClearAllDrawings(s))
  {
    if s.selected.Some? {
      var sel := s.selected.value;
      var i :| 0 <= i < |s.drawings| && s.drawings[i].id == sel;
      var a := AddDrawing(s, d).drawings;
      assert a[i] == s.drawings[i];
      var u := UpdateDrawing(s, id, patch).drawings;
      assert u[i].id == sel;
      var r := RemoveDrawing(s, id);
      if sel != id {
        assert s.drawings[i] in r.drawings;
        var j :| 0 <= j < |r.drawings| && r.drawings[j] == s.drawings[i];
        assert HasId(r.drawings, sel);
      }
    }
  }

  /** `setSelectedDrawing` does not check membership: it can leave the selection dangling. */
  lemma SetSelectedCanDangle()
    ensures !SelectionValid(SetSelectedDrawing(Initial, Some("missing")))
  {
  }
}

=== FILE: transformers.dfy ===
/**
 * The ratio join (`calculateRatioData` in src/services/transformers.ts): keep
 * the base rows whose date also appears among the quote rows, in base order,
 * and divide each base price by the matching quote price.
 *
 * The source indexes the quote rows in a `Map` keyed by date, so with several
 * quote rows on one date the last one wins. Prices are divided without a
 * guard, so quote prices must be non-zero.
 */
module Transformers {
  import opened Wrappers
  import opened Types

  /** Some quote row falls on `date`. */
  predicate HasDate(quotes: seq<Candle>, date: string)
  {
    exists i :: 0 <= i < |quotes| && quotes[i].date == date
  }

  /** The last quote row on `date` (what `new Map(...).get(date)` returns), if any. */
  function {:induction false} LastQuote(quotes: seq<Candle>, date: string): (r: Option<Candle>)
    ensures r.None? <==> !HasDate(quotes, date)
    ensures r.Some? ==> r.value.date == date
    ensures r.Some? ==> exists i :: 0 <= i < |quotes| && quotes[i] == r.value && (forall j :: i < j < |quotes| ==> quotes[j].date != date)
    decreases |quotes|
  {
    if quotes == [] then None
    else
      var n := |quotes| - 1;
      if quotes[n].date == date then Some(quotes[n])
      else
        var r := LastQuote(quotes[..n], date);
        assert forall i :: 0 <= i < n ==> quotes[..n][i] == quotes[i];
        assert HasDate(quotes, date) ==> HasDate(quotes[..n], date) by {
          if HasDate(quotes, date) {
            var i :| 0 <= i < |quotes| && quotes[i].date == date;
            assert i < n;
            assert quotes[..n][i].date == date;
          }
        }
        r
  }

  /** Every quote price is non-zero, so every ratio is defined. */
  predicate Divisible(quotes: seq<Candle>)
  {
    forall i :: 0 <= i < |quotes| ==>
      quotes[i].open != 0.0 && quotes[i].close != 0.0 && quotes[i].low != 0.0 && quotes[i].high != 0.0
  }

  function Min3(a: real, b: real, c: real): real
  {
    if a <= b && a <= c then a else if b <= c then b else c
  }

  function Max3(a: real, b: real, c: real): real
  {
    if a >= b && a >= c then a else if b >= c then b else c
  }

  /**
   * One joined row: open and close are the price ratios; low and high widen the
   * low and high ratios so they bracket open and close; volume is the mean.
   */
  function RatioRow(base: Candle, quote: Candle): (r: Candle)
    requires quote.open != 0.0 && quote.close != 0.0 && quote.low != 0.0 && quote.high != 0.0
    ensures r.date == base.date
    ensures r.open * quote.open == base.open && r.close * quote.close == base.close
    ensures r.low <= r.open && r.low <= r.close && r.low <= base.low / quote.low
    ensures r.low == r.open || r.low == r.close || r.low == base.low / quote.low
    ensures r.high >= r.open && r.high >= r.close && r.high >= base.high / quote.high
    ensures r.high == r.open || r.high == r.close || r.high == base.high / quote.high
    ensures r.volume == (base.volume + quote.volume) / 2.0
  {
    var o := base.open / quote.open;
    var c := base.close / quote.close;
    Candle(base.date, o, Max3(o, c, base.high / quote.high), Min3(o, c, base.low / quote.low), c,
           (base.volume + quote.volume) / 2.0)
  }

  /** The joined rows of the first `n` base rows: filter by a matching quote, then map to ratios. */
  function {:induction false} RatioUpTo(base: seq<Candle>, quotes: seq<Candle>, n: nat): (r: seq<Candle>)
    requires n <= |base| && Divisible(quotes)
    ensures |r| <= n
    decreases n
  {
    if n == 0 then []
    else
      var earlier := RatioUpTo(base, quotes, n - 1);
      var q := LastQuote(quotes, base[n - 1].date);
      if q.Some? then
        assert q.value in quotes;
        earlier + [RatioRow(base[n - 1], q.value)]
      else earlier
  }

  /** The base positions the join keeps among the first `n`, in increasing order. */
  function {:induction false} KeptUpTo(base: seq<Candle>, quotes: seq<Candle>, n: nat): (ks: seq<nat>)
    requires n <= |base|
    ensures forall i :: 0 <= i < |ks| ==> ks[i] < n && HasDate(quotes, base[ks[i]].date)
    ensures forall i, j :: 0 <= i < j < |ks| ==> ks[i] < ks[j]
    ensures forall k :: 0 <= k < n && HasDate(quotes, base[k].date) ==> k in ks
    decreases n
  {
    if n == 0 then []
    else
      var earlier := KeptUpTo(base, quotes, n - 1);
      if HasDate(quotes, base[n - 1].date) then earlier + [n - 1] else earlier
  }

  /**
   * Output row `i` is the ratio of base row `KeptUpTo(..)[i]` with the last
   * quote row of its date: the output is the base rows that have a quote, in
   * base order, each joined with its quote.
   */
  lemma {:induction false} RatioRowsFromKept(base: seq<Candle>, quotes: seq<Candle>, n: nat)
    requires n <= |base| && Divisible(quotes)
    ensures var r := RatioUpTo(base, quotes, n); var ks := KeptUpTo(base, quotes, n);
      && |r| == |ks|
      && forall i :: 0 <= i < |r| ==>
           LastQuote(quotes, base[ks[i]].date).Some?
           && r[i] == RatioRow(base[ks[i]], LastQuote(quotes, base[ks[i]].date).value)
    decreases n
  {
    if n > 0 {
      RatioRowsFromKept(base, quotes, n - 1);
    }
  }

  /**
   * The whole join: one row per base row whose date some quote row carries, in
   * base order, each the ratio of that base row with the last such quote row.
   */
  function CalculateRatioData(base: seq<Candle>, quotes: seq<Candle>): (r: seq<Candle>)
    requires Divisible(quotes)
    ensures var ks := KeptUpTo(base, quotes, |base|);
      && |r| == |ks| <= |base|
      && forall i :: 0 <= i < |r| ==>
           LastQuote(quotes, base[ks[i]].date).Some?
           && r[i] == RatioRow(base[ks[i]], LastQuote(quotes, base[ks[i]].date).value)
  {
    RatioRowsFromKept(base, quotes, |base|);
    RatioUpTo(base, quotes, |base|)
  }

  /** Every output row lies on a date both series have, and its low is at most its high. */
  lemma {:induction false} RatioRowsWellFormed(base: seq<Candle>, quotes: seq<Candle>)
    requires Divisible(quotes)
    ensures var r := CalculateRatioData(base, quotes);
      forall i :: 0 <= i < |r| ==>
        (exists k :: 0 <= k < |base| && base[k].date == r[i].date)
        && HasDate(quotes, r[i].date)
        && r[i].low <= r[i].open <= r[i].high && r[i].low <= r[i].close <= r[i].high
  {
    var r := CalculateRatioData(base, quotes);
    var ks := KeptUpTo(base, quotes, |base|);
    RatioRowsFromKept(base, quotes, |base|);
    forall i | 0 <= i < |r|
      ensures (exists k :: 0 <= k < |base| && base[k].date == r[i].date)
      ensures HasDate(quotes, r[i].date)
    {
      assert base[ks[i]].date == r[i].date;
    }
  }

  /** Extending the quote prefix by one row: that row wins for its own date, other dates keep their answer. */
  lemma LastQuoteExtend(quotes: seq<Candle>, i: nat, d: string)
    requires i < |quotes|
    ensures LastQuote(quotes[..i + 1], d) == if quotes[i].date == d then Some(quotes[i]) else LastQuote(quotes[..i], d)
  {
    assert quotes[..i + 1][..i] == quotes[..i];
  }

  /** The `Map` the source builds from the quote rows, keyed by date. */
  function Lookup(byDate: map<string, Candle>, d: string): Option<Candle>
  {
    if d in byDate then Some(byDate[d]) else None
  }

  /** `new Map(quotes.map(q => [q.date, q]))`: insert the rows in order, so the last row per date wins. */
  method IndexByDate(quotes: seq<Candle>) returns (byDate: map<string, Candle>)
    ensures forall d :: Lookup(byDate, d) == LastQuote(quotes, d)
  {
    byDate := map[];
    for i := 0 to |quotes|
      invariant forall d :: Lookup(byDate, d) == LastQuote(quotes[..i], d)
    {
      var next := byDate[quotes[i].date := quotes[i]];
      forall d
        ensures Lookup(next, d) == LastQuote(quotes[..i + 1], d)
      {
        LastQuoteExtend(quotes, i, d);
      }
      byDate := next;
    }
    assert quotes[..|quotes|] == quotes;
  }

  /**
   * The join as the app's code runs it: index the quote rows by date, then
   * keep and convert the base rows that find a quote.
   */
  method ComputeRatioData(base: seq<Candle>, quotes: seq<Candle>) returns (r: seq<Candle>)
    requires Divisible(quotes)
    ensures r == CalculateRatioData(base, quotes)
  {
    var byDate := IndexByDate(quotes);
    r := [];
    for j := 0 to |base|
      invariant r == RatioUpTo(base, quotes, j)
    {
      var date := base[j].date;
      assert Lookup(byDate, date) == LastQuote(quotes, date);
      if date in byDate {
        r := r + [RatioRow(base[j], byDate[date])];
      }
    }
  }

  /** Rows whose parsed dates never decrease. */
  predicate DateOrdered(rows: seq<Candle>, epoch: string -> real)
  {
    forall i, j :: 0 <= i < j < |rows| ==> epoch(rows[i].date) <= epoch(rows[j].date)
  }

  /**
   * The join keeps base order, so base rows already in date order give joined
   * rows in date order, and the stable date sort run afterwards changes nothing.
   */
  lemma {:induction false} RatioKeepsDateOrder(base: seq<Candle>, quotes: seq<Candle>, epoch: string -> real)
    requires Divisible(quotes) && DateOrdered(base, epoch)
    ensures DateOrdered(CalculateRatioData(base, quotes), epoch)
  {
    var r := CalculateRatioData(base, quotes);
    var ks := KeptUpTo(base, quotes, |base|);
    RatioRowsFromKept(base, quotes, |base|);
    forall i, j | 0 <= i < j < |r|
      ensures epoch(r[i].date) <= epoch(r[j].date)
    {
      assert r[i].date == base[ks[i]].date && r[j].date == base[ks[j]].date;
      assert ks[i] < ks[j];
    }
  }
}

=== FILE: types.dfy ===
/**
 * The drawing entity model of the charting app (src/types/index.ts).
 *
 * TypeScript's `type` field is called `kind` here because `type` is a Dafny
 * keyword. Optional fields (`points?`, `attributes?`, `text?`, ...) are `Option`s.
 */
module Types {
  import opened Wrappers

  /** The six drawing tags; `Select` is the pseudo-tool for picking existing drawings. */
  datatype DrawingType = HorizontalLine | TrendLine | Rectangle | Ellipse | Text | Select

  /** The string tag the source uses for each drawing type. */
  function TypeName(t: DrawingType): string
  {
    match t
    case HorizontalLine => "horizontalLine"
    case TrendLine => "trendLine"
    case Rectangle => "rectangle"
    case Ellipse => "ellipse"
    case Text => "text"
    case Select => "select"
  }

  /** Types committed on the first click. */
  predicate IsSinglePoint(t: DrawingType)
  {
    t == HorizontalLine || t == Text
  }

  /** Types that need a second click (and a second point) before they are committed. */
  predicate IsTwoPoint(t: DrawingType)
  {
    t == TrendLine || t == Rectangle || t == Ellipse
  }

  /** A point `{x, y}`: (time, price) in domain space, or (horizontal, vertical) in pixel space. */
  datatype Point = Point(x: real, y: real)

  datatype LineStyle = Solid | Dashed | Dotted

  /**
   * `DrawingAttributes`, and equally `Partial<DrawingAttributes>`: every field
   * may be absent, because object spreads over partial records can drop any of
   * them. A record built by the creation code has `kind`, `color` and
   * `lineWidth` present.
   */
  datatype Attributes = Attributes(
    kind: Option<DrawingType>,
    color: Option<string>,
    lineWidth: Option<real>,
    text: Option<string>,
    lineStyle: Option<LineStyle>,
    points: Option<seq<Point>>)

  /** The record with no fields, `{}`. */
  const NoAttributes := Attributes(None, None, None, None, None, None)

  /** A patch holding only `points`, `{ points: ps }`. */
  function PointsPatch(ps: seq<Point>): Attributes
  {
    NoAttributes.(points := Some(ps))
  }

  /** A drawing (`DrawingTool`): identifier, type tag, optional points and attributes. */
  datatype Drawing = Drawing(id: string, kind: DrawingType, points: Option<seq<Point>>, attributes: Option<Attributes>)

  /** A selected tool `{type, id}` as the control bar hands it to the app. */
  datatype Tool = Tool(kind: DrawingType, id: string)

  /** One OHLC row (`AssetData`); `date` stays a string, parsing it is a parameter of its users. */
  datatype Candle = Candle(date: string, open: real, high: real, low: real, close: real, volume: real)

  /** A field of a spread `{...base, ...patch}`: the patch's value when it has one, else the base's. */
  function Pick<T>(patch: Option<T>, base: Option<T>): (r: Option<T>)
    ensures patch.Some? ==> r == patch
    ensures patch.None? ==> r == base
  {
    if patch.Some? then patch else base
  }

  /**
   * The object spread `{ ...base, ...patch }` over attribute records; spreading
   * an absent record (`undefined`) contributes no fields.
   */
  function Spread(base: Option<Attributes>, patch: Attributes): (r: Attributes)
    ensures patch.kind.Some? ==> r.kind == patch.kind
    ensures patch.kind.None? ==> r.kind == base.GetOr(NoAttributes).kind
    ensures patch.color.Some? ==> r.color == patch.color
    ensures patch.color.None? ==> r.color == base.GetOr(NoAttributes).color
    ensures patch.lineWidth.Some? ==> r.lineWidth == patch.lineWidth
    ensures patch.lineWidth.None? ==> r.lineWidth == base.GetOr(NoAttributes).lineWidth
    ensures patch.text.Some? ==> r.text == patch.text
    ensures patch.text.None? ==> r.text == base.GetOr(NoAttributes).text
    ensures patch.lineStyle.Some? ==> r.lineStyle == patch.lineStyle
    ensures patch.lineStyle.None? ==> r.lineStyle == base.GetOr(NoAttributes).lineStyle
    ensures patch.points.Some? ==> r.points == patch.points
    ensures patch.points.None? ==> r.points == base.GetOr(NoAttributes).points
    ensures base.None? ==> r == patch
  {
    var b := base.GetOr(NoAttributes);
    Attributes(
      Pick(patch.kind, b.kind),
      Pick(patch.color, b.color),
      Pick(patch.lineWidth, b.lineWidth),
      Pick(patch.text, b.text),
      Pick(patch.lineStyle, b.lineStyle),
      Pick(patch.points, b.points))
  }

  /** JavaScript truthiness of a `string | null` id: null and the empty string are falsy. */
  predicate Truthy(id: Option<string>)
  {
    id.Some? && id.value != ""
  }

  /** Some drawing in `ds` carries the identifier `id`. */
  predicate HasId(ds: seq<Drawing>, id: string)
  {
    exists i :: 0 <= i < |ds| && ds[i].id == id
  }

  /** The position of the first drawing with identifier `id`, or `|ds|` when there is none. */
  function {:induction false} FirstIndex(ds: seq<Drawing>, id: string): (k: nat)
    ensures k <= |ds|
    ensures forall j :: 0 <= j < k ==> ds[j].id != id
    ensures k < |ds| ==> ds[k].id == id
  {
    if ds == [] then 0
    else if ds[0].id == id then 0
    else
      var k := FirstIndex(ds[1..], id);
      assert forall j :: 1 <= j < k + 1 ==> ds[j] == ds[1..][j - 1];
      k + 1
  }

  /** JavaScript's `drawings.find(d => d.id === id)`: the first drawing with that id, if any. */
  function Find(ds: seq<Drawing>, id: string): (r: Option<Drawing>)
    ensures r.None? <==> !HasId(ds, id)
    ensures r.Some? ==> r.value in ds && r.value.id == id
    ensures r.Some? ==> exists k :: 0 <= k < |ds| && r.value == ds[k] && forall j :: 0 <= j < k ==> ds[j].id != id
  {
    var k := FirstIndex(ds, id);
    if k < |ds| then Some(ds[k]) else None
  }
}

=== FILE: wrappers.dfy ===
/** Optional values: the model's rendering of TypeScript's `T | undefined` and `T | null`. */
module Wrappers {

  datatype Option<+T> = None | Some(value: T) {

    /** The wrapped value, or `default` when there is none (JavaScript's `a ?? b`). */
    function GetOr(default: T): T
    {
      match this
      case Some(v) => v
      case None => default
    }
  }
}
